=== FILE: README.md ===
# rclone multi-thread copy, modelled in Dafny

This project models the core of rclone's multi-thread copy engine, found in
`fs/operations/multithread.go`. The engine copies one large object by cutting
it into chunks. It opens one ranged read of the source per chunk and hands
each chunk to a chunk writer. A destination either has a native chunk writer
(`OpenChunkWriter`) or only random-access writes (`OpenWriterAt`). In the
second case the engine wraps the destination in `writerAtChunkWriter`, an
adapter that writes chunk `k` through an `offsetWriter` based at
`k * chunkSize`.

The model has these parts:

- **Integer arithmetic.** `GoInt` gives Go's truncating `/` and `%`.
- **Chunk arithmetic.** `Chunks` holds `calculateNumChunks`, the range of
  each chunk and the inclusive range request. It also proves that the ranges
  tile `[0, size)`.
- **Eligibility.** `Eligibility` is `doMultiThreadCopy`.
- **Planner.** `Planner` covers how `multiThreadCopy` derives the part size,
  the chunk count and the worker-pool limit.
- **Chunk copy.** `CopyChunk` is the read half of `copyChunk` and its hand-off
  to the adapter.
- **Offset writer.** `OffsetWriter` represents the destination as a map from
  absolute offset to byte. It models `WriteAt`, `offsetWriter.Write` and the
  `io.Copy` that drives it.
- **Adapter.** `WriterAtChunkWriter` covers the adapter's `WriteChunk` and
  `Abort`, and the info that `openChunkWriterFromOpenWriterAt` reports.
- **Coordinator.** `Coordinator` covers the control flow of `multiThreadCopy`.
  It is a sequential state machine over the results its collaborators
  return, and it records the steps it takes. `CoordinatorProperties` proves
  the outcome protocol.
- **End to end.** `AdapterTransfer` composes everything on the adapter path.
  Every chunk succeeds against a source that honours range requests, and the
  destination then holds the source at `[0, size)`. The coordinator reports
  success for such a run when the writer opens, Close and the lookup of the
  new object succeed, and the destination has no partial uploads.

Two behaviours of the code are worth stating up front:

- **Adapter-path chunks are streamed directly.** `noseek` is set exactly
  when the adapter is used (multithread.go:134-142), so only native chunk
  writers get the buffered copy. `CopyChunk.ReadChunk` models both modes,
  and `AdapterTransfer.AdapterCopyState` uses the direct one.
- **The planned concurrency can exceed numChunks.** The backend's preferred
  concurrency is applied after the clamp to `numChunks`
  (multithread.go:176-185). So, for a positive chunk size, the planned
  concurrency exceeds `numChunks` exactly when the backend's preference does
  (`Planner.PlanExceedsChunksIff`). With a preference of 4, a one-chunk copy
  plans 4 streams (`Planner.PlanCanExceedChunks`). With 8 streams set and a
  preference of 1, the clamp to one stream stands
  (`Planner.PlanClampsToChunks`).

## Model

| member | source | states |
|---|---|---|
| `GoInt.Quot` | fs/operations/multithread.go:121 | Go's `size / chunkSize` truncates toward zero. It agrees with Euclidean division for a non-negative dividend and a positive divisor, and its sign follows the operands' signs. |
| `GoInt.Rem` | fs/operations/multithread.go:122 | Go's `%` satisfies `a == b * (a / b) + a % b`. Its magnitude is below the divisor's, and its sign is the dividend's. |
| `Chunks.CalculateNumChunks` | fs/operations/multithread.go:118-126 | For a positive size and chunk size, the count n is at least 1, n chunks cover the size, and n - 1 chunks do not. |
| `Chunks.NumChunksIsCeiling` | fs/operations/multithread.go:118-126 | Those two bounds determine the count. Any m that meets them equals `calculateNumChunks` and equals `ceil(size / chunkSize)`. |
| `Chunks.ChunkRange` | fs/operations/multithread.go:72-80 | A chunk has no range (the no-I/O success) exactly when its start `chunk * partSize` is at or past the size. Otherwise it starts there, ends by the size, is 1 to partSize bytes long, and is a full part unless it ends at the size. |
| `Chunks.RangeRequest` | fs/operations/multithread.go:84 | The source is opened at the chunk's start with an inclusive end, so `end - start + 1` is the chunk's length. |
| `Chunks.ChunksTile` | fs/operations/multithread.go:72-80 | Chunks 0 .. numChunks-1 all have ranges and later indices have none. The first range starts at 0, the last ends at the size, and each range ends where the next begins. |
| `Chunks.ChunkOwnsOffset` | fs/operations/multithread.go:72-80 | An offset lies in chunk i's range exactly when it is inside the source and i is offset / partSize. So the ranges are pairwise disjoint and their union is `[0, size)`. |
| `Chunks.CoveredBytesIsPrefix` | fs/operations/multithread.go:72-80 | The first k chunk ranges together are `min(k * partSize, size)` bytes long. |
| `Chunks.ChunkLengthsSumToSize` | fs/operations/multithread.go:72-80 | The ranges of all numChunks chunks add up to exactly the source size. |
| `Chunks.TilingExample` | fs/operations/multithread.go:72-84 | 1000 bytes in 300-byte parts gives four chunks, the last one being 900-1000, requested as 900-999, and no fifth chunk. |
| `Eligibility.DoMultiThreadCopy` | fs/operations/multithread.go:24-52 | Multi-thread copy is used exactly when all of these hold: more than one stream; the source allows it; the size reaches the cutoff; the destination has a chunk writer or WriteAt; and the two ends are not both local with the stream count left unset. |
| `Planner.Plan` | fs/operations/multithread.go:170-188 | The part size is the chunk size capped at the source size, and the chunk count covers the source. If the stream count was set and the backend's preference is at most min(requested, numChunks), the pool limit is that minimum floored at 1. Otherwise it is the backend's preference floored at 1. The limit is always at least 1. |
| `Planner.PlanExceedsChunksIff` | fs/operations/multithread.go:176-188 | The planned concurrency exceeds numChunks exactly when the backend's preferred concurrency does. |
| `Planner.PlanCanExceedChunks` | fs/operations/multithread.go:176-188 | A 10-byte source in 64-byte chunks is one chunk, yet a backend preferring 4 streams gets a pool limit of 4. |
| `Planner.PlanClampsToChunks` | fs/operations/multithread.go:176-179 | With 8 streams set explicitly and a backend preferring 1, the clamp to the single chunk stands. |
| `Planner.PlanPrefersBackendWhenImplicit` | fs/operations/multithread.go:181-185 | With the stream count left at its default of 4 and a backend preferring 8, a 10-chunk copy uses 8 streams. |
| `CopyChunk.SourceRequest` | fs/operations/multithread.go:72-84 | The source is opened only for a chunk that starts before the end. The request starts at the chunk's start, and its inclusive end is `min(start + partSize, size) - 1`, which lies inside the source. |
| `CopyChunk.ReadChunk` | fs/operations/multithread.go:72-106 | A chunk past the end does nothing. An open failure becomes the wrapped open error. In direct mode the whole stream goes to the writer. In buffered mode the read succeeds exactly when the stream holds at least the range's length, and then exactly that many bytes are handed on. A shorter stream is a read error that records the stream's length and the range's length. |
| `CopyChunk.CopyChunkToAdapter` | fs/operations/multithread.go:66-116 | A chunk past the end succeeds and leaves the destination alone. A failed open fails without writing. In direct mode the chunk succeeds exactly when the stream is as long as the adapter expects. On success the stream lands at `chunk * chunkSize`. On failure only the part the write buffer had flushed lands there. |
| `OffsetWriter.WriteAt` | fs/operations/multithread.go:260 | The destination's `WriteAt(p, off)`, byte by byte. The function carries no contract of its own, because one on it would weigh on every proof that unfolds it. What it does is stated by `WriteAtPlaces`, `WriteAtConcat` and `WriteAtCommute`. |
| `OffsetWriter.WriteAtPlaces` | fs/operations/multithread.go:260 | After `WriteAt(p, off)` the destination holds p on `[off, off + len(p))`. Every other offset keeps its contents, and no offset appears that was not there or written. |
| `OffsetWriter.WriteAtConcat` | fs/operations/multithread.go:259-263 | Two writes that abut are one write of the concatenation. This is why successive offsetWriter writes form a single write. |
| `OffsetWriter.WriteAtCommute` | fs/operations/multithread.go:212-214 | Writes to disjoint windows commute, so concurrent chunk writers may reach the destination in any order. |
| `OffsetWriter.Write` | fs/operations/multithread.go:259-263 | `offsetWriter.Write` reports all of p written and advances the cursor by exactly that count. |
| `OffsetWriter.WritePlaces` | fs/operations/multithread.go:259-263 | Write puts p at the cursor and leaves every offset outside it unchanged. |
| `OffsetWriter.Copy` | fs/operations/multithread.go:289 | `io.Copy` into an offsetWriter moves the whole stream in buffer-sized pieces. It reports the stream's length, advances the cursor by it, and leaves the destination as one WriteAt of the stream at the starting cursor. |
| `WriterAtChunkWriter.AdapterInfo` | fs/operations/multithread.go:344-347 | The adapter reports the configured chunk size and stream count, and never asks to leave parts on error. |
| `WriterAtChunkWriter.OpenAdapter` | fs/operations/multithread.go:335-343 | The adapter keeps the source size, the configured chunk size and the write buffer size. Its chunk count covers the source size with the uncapped chunk size. |
| `WriterAtChunkWriter.AdapterChunksMatchPlan` | fs/operations/multithread.go:339 | The adapter's uncapped chunk count equals the planner's count with the capped part size. |
| `WriterAtChunkWriter.BytesToWrite` | fs/operations/multithread.go:280-283 | Each chunk expects between 1 and chunkSize bytes, and a full chunkSize unless it is the last. For an adapter opened on a positive size, the last chunk's expected bytes end exactly at the size. |
| `WriterAtChunkWriter.FlushedBeforeCheck` | fs/operations/multithread.go:286-289 | Without a write buffer every byte has reached WriteAt by the time of the count check. With a buffer of B bytes only whole buffers have, so fewer than B bytes are held back. |
| `WriterAtChunkWriter.WriteChunk` | fs/operations/multithread.go:277-305 | WriteChunk succeeds exactly when the reader holds the expected byte count, and it then reports that count. Otherwise it reports -1 with a short-or-long error naming both counts. On success all the reader's bytes land at `chunk * chunkSize`, the buffered tail through the final flush. On failure the flush never happens, so only the whole buffers already passed on land there (every byte when there is no buffer). |
| `WriterAtChunkWriter.ShortBufferedChunkWritesNothing` | fs/operations/multithread.go:285-294 | A 3-byte first chunk of a 10-byte source in 8-byte chunks, with a 4096-byte write buffer, fails with the expected and actual counts 8 and 3, and the destination is left exactly as it was. |
| `WriterAtChunkWriter.Abort` | fs/operations/multithread.go:313-319 | Abort tries the removal exactly when the lookup of the partial object succeeds. It succeeds exactly when lookup and removal both do, and a failed lookup is reported wrapped. |
| `WriterAtChunkWriter.AbortReturn` | fs/operations/multithread.go:313-319 | The error Abort hands back is absent exactly when both the lookup and the removal succeeded. |
| `WriterAtChunkWriter.ExpectedBytesMatchRange` | fs/operations/multithread.go:280-283 | For every chunk index of the adapter, copyChunk's range with the planner's part size starts at `chunk * chunkSize` and is exactly bytesToWrite long. |
| `WriterAtChunkWriter.ExpectedTotalMatchesCovered` | fs/operations/multithread.go:280-283 | The expected counts of the first k chunks add up to the bytes their ranges cover. |
| `WriterAtChunkWriter.ExpectedTotalIsSize` | fs/operations/multithread.go:280-283 | The expected counts of all chunks add up to the source size. |
| `Coordinator.OpenChunkWriter` | fs/operations/multithread.go:131-142 | A native chunk writer is used whenever the destination has one. Otherwise the adapter opens exactly when OpenWriterAt does, and it reports the adapter's info. |
| `Coordinator.SpawnLoop` | fs/operations/multithread.go:206-215 | The loop spawns chunks in increasing order, every chunk before the last spawned one succeeded, and a loop that ends without error spawned every chunk. A failure stops it right after the failing chunk, with that chunk's error. |
| `Coordinator.Finish` | fs/operations/multithread.go:217-238 | After Close the run only looks the object up and, on destinations with partial uploads, sets its modification time. Every failure here arises after opening, and success takes both steps exactly on such destinations. |
| `Coordinator.OpenedRun` | fs/operations/multithread.go:151-241 | A run with an open writer starts with the open, fails only with post-open errors, and on success has closed and looked up the object. |
| `Coordinator.MultiThreadCopy` | fs/operations/multithread.go:130-242 | A successful copy had a positive size and has closed and looked up the object. Any run that takes a step starts by opening the writer. |
| `CoordinatorProperties.ValidationBeforeOpen` | fs/operations/multithread.go:134-149 | The missing-capability error comes first, then the unknown-size and zero-size errors. Each arises exactly in its own case. The run tries to open the writer exactly when all three checks pass, and a run that fails them takes no step at all, so it never aborts. |
| `CoordinatorProperties.OpenFailureStopsRun` | fs/operations/multithread.go:151-154 | A writer that fails to open is reported wrapped, and nothing follows the open. |
| `CoordinatorProperties.OpenedRunShape` | fs/operations/multithread.go:190-218 | An opened run sets the pool limit to the planned concurrency (at least 1), spawns chunks 0, 1, ... in order, then waits and closes. No other step spawns, and Close comes exactly once, right after the wait. |
| `CoordinatorProperties.SpawnedIsPrefix` | fs/operations/multithread.go:206-215 | The spawned chunks are a prefix of `[0, numChunks)`. Every chunk before the last spawned one succeeded, and the loop stops early only right after a failing chunk. |
| `CoordinatorProperties.ChunkErrorWins` | fs/operations/multithread.go:217-221 | The first failing chunk's error is the result, whatever Close, NewObject or SetModTime would answer, and no chunk after it is spawned. |
| `CoordinatorProperties.SuccessIff` | fs/operations/multithread.go:217-241 | An opened run succeeds exactly when every chunk, Close and the lookup succeed and, with partial uploads, SetModTime succeeds or fails with one of the two tolerated errors. |
| `CoordinatorProperties.FinalizeErrors` | fs/operations/multithread.go:222-238 | With every chunk done: a Close error fails the run; after a good Close a failed lookup is fatal; with partial uploads any other SetModTime error is fatal; without partial uploads the run succeeds. |
| `CoordinatorProperties.AbortExactlyOnceOnFailure` | fs/operations/multithread.go:158-168 | Abort appears exactly in the runs that opened the writer and fail while the writer did not ask to leave parts. It then appears once, as the last step. |
| `CoordinatorProperties.AbortResultNeverReturned` | fs/operations/multithread.go:164-167 | Whatever Abort answers, the run returns the same result and takes the same steps. |
| `CoordinatorProperties.AdapterFailureAborts` | fs/operations/multithread.go:158-167 | The adapter never asks to leave parts (lines 344-347), so an opened adapter-path run ends with Abort exactly when it fails. |
| `CoordinatorProperties.AdapterAbortOnFailure` | fs/operations/multithread.go:158-167 | On the adapter path, a failing opened run ends with the adapter's Abort (lines 313-319). Abort tries the removal exactly when the lookup succeeds, and whatever the lookup and removal answer, the run's result and steps are the same. |
| `CoordinatorProperties.NativeWriterPreferred` | fs/operations/multithread.go:131-142 | On a destination with a native chunk writer, the OpenWriterAt result never matters. |
| `CoordinatorProperties.EligibleTransferOpensWriter` | fs/operations/multithread.go:43-45 | A transfer the eligibility check admits never fails for lack of a write capability. With a positive cutoff it also passes the size checks and tries to open the writer. |
| `AdapterTransfer.AdapterCopyState` | fs/operations/multithread.go:193-200 | The adapter path's copy state streams directly, keeps the source size, and has a positive part size of at most the size, with a chunk count of at least 1 that covers the size and no more. |
| `AdapterTransfer.AdapterStateMatchesPlan` | fs/operations/multithread.go:170-175 | On the adapter path the copy state's part size and chunk count are the ones the planner derives from the adapter's info. |
| `AdapterTransfer.ChunkGeometry` | fs/operations/multithread.go:72-84 | Each adapter-path chunk starts at `chunk * chunkSize`, lies inside the source, is bytesToWrite long, and is requested with an inclusive end. |
| `AdapterTransfer.ChunkStep` | fs/operations/multithread.go:66-116 | On a source that honours range requests, each chunk of the adapter path succeeds. It writes exactly its bytes at its start, whatever the destination held. |
| `AdapterTransfer.AdapterJobPlacesChunks` | fs/operations/multithread.go:212-214 | The adapter path's chunk job places every chunk of the plan. |
| `AdapterTransfer.RunChunks` | fs/operations/multithread.go:206-215 | The pool loop run sequentially. At most k outcomes are recorded, and exactly k when all pass. Only the last recorded outcome can be a failure, because no chunk is started after a failing one. |
| `AdapterTransfer.RunChunksPrefix` | fs/operations/multithread.go:206-215 | Running to a later bound only appends: the outcomes of a j-chunk run are a prefix of those of a k-chunk run, for j <= k. |
| `AdapterTransfer.StoppedStays` | fs/operations/multithread.go:207-210 | Once a run has recorded a failure, running to any later bound starts no further chunk and leaves the destination as it was. |
| `AdapterTransfer.RunChunksOutcome` | fs/operations/multithread.go:206-215 | Outcome i is chunk i's job, run on the destination that chunks 0 .. i-1 left behind. So the outcomes are one per chunk, in index order. |
| `AdapterTransfer.RunChunksMatchesSpawnLoop` | fs/operations/multithread.go:206-215 | Fed the run's outcomes, the coordinator's spawn loop starts exactly as many chunks as the run recorded. Both stop right after the first failure. |
| `AdapterTransfer.RunChunksPlacesData` | fs/operations/multithread.go:206-215 | Running the first k chunks of a job that places its chunks succeeds every time. It leaves the first `min(k * partSize, size)` source bytes at offset 0. |
| `AdapterTransfer.AdapterTransferCopiesSource` | fs/operations/multithread.go:206-217 | All chunks of an adapter-path copy succeed, and the destination ends up as one write of the whole source at offset 0. |
| `AdapterTransfer.ChunkWritesCommute` | fs/operations/multithread.go:285 | WriteChunk calls for two different chunks of the expected sizes touch disjoint offsets, so their order does not matter. |
| `AdapterTransfer.AdapterRunSucceeds` | fs/operations/multithread.go:217-241 | On an OpenWriterAt-only destination without partial uploads, the coordinator fed those chunk outcomes succeeds once the writer opens, closes and is found again. |

## Left out

- Goroutines, `errgroup`, `SetLimit` and context cancellation are not
  modelled as concurrency. The pool runs one chunk at a time, so the first
  failing chunk is the one `g.Wait` reports, and `SetLimit` is recorded as a
  step. `WriteAtCommute` and `ChunkWritesCommute` cover the freedom of order
  between chunks. The consequence: in Go the cancellation check (line 208)
  runs before `g.Go` (line 212), which waits for a free slot, so chunks after
  a failing one can still be spawned, even with a limit of 1, and `g.Wait`
  reports the error that happened first in time rather than the lowest
  failing index. "The loop stops right after the first failing chunk"
  (`Coordinator.SpawnLoop`, `AdapterTransfer.RunChunks`,
  `CoordinatorProperties.SpawnedIsPrefix`,
  `CoordinatorProperties.ChunkErrorWins`) holds of this sequential reading
  only.
- Accounting (`tr.Account`, `WrapStream`, `AccountRead`) and debug logging
  are left out, because they have no effect on results.
- The `multipart.NewRW` spill buffer is not modelled. The buffered read is a
  copy of exactly the range's length.
- `WriterAtChunkWriter.FlushedBeforeCheck`: which bytes `bufio` has flushed
  when a chunk fails depends on the source stream's type. The model takes the
  plain-stream case, where `bufio` reads into its buffer and flushes only full
  buffers. A stream with its own `WriteTo` can pass large writes straight
  through, so its unflushed tail may differ, though it is still at most one
  buffer.
- The flush error path (multithread.go:299-301) is not modelled. It wraps
  `err` instead of the flush error, and a flush never fails in the model.
- `fs.CheckClose` errors from closing the source stream or the buffer are
  not modelled. These are I/O faults of collaborators the model cannot see.
- The backends are not modelled. The native `OpenChunkWriter`, `Open`,
  `NewObject`, `SetModTime` and `Remove` are abstract results in
  `Coordinator.Env`.
- The native chunk writer's `WriteChunk` is folded into the per-chunk
  outcome. Only the adapter's writes are modelled byte by byte.
- `WriteAt` on the destination always accepts the whole slice. Backend write
  failures are not modelled, so `WriterAtChunkWriter.WriteChunk` only fails
  on a short or long chunk.
- A source stream that fails in the middle of a read is not modelled. The
  opened stream is a finite byte sequence, or the open fails.
- Go's `int64` overflow is not modelled. Sizes and offsets are unbounded
  integers.
- A zero chunk size makes Go's division panic, but only once a chunk writer
  with that size has opened for a positive-size source (multithread.go:175,
  and multithread.go:339 inside the adapter's open). That one case is a
  `requires` (`Coordinator.NoZeroChunkSize`), not a modelled panic. Every
  other run with a zero chunk size is modelled.
- `CopyChunk.ChunkError` and `Coordinator.CopyError` carry the model's own
  labels. The counts in `ReadChunkFailed` and the chunk index in
  `ChunkFailed` are not in Go's error values. Go wraps `io.EOF` for a short
  read (multithread.go:101), and logs the chunk index only in a debug message
  (multithread.go:69).
- `atexit.OnError` is modelled only as "on an error return, run Abort
  unless the writer asks to leave parts".
- `fs.GetConfig` becomes an explicit `Fs.Config` record.
- `CopyChunk.CopyChunkToAdapter`: in buffered mode the contract does not
  state the destination's contents. That mode never reaches the adapter in
  the code, because the adapter path always streams directly.
- `Coordinator.MultiThreadCopy`: its own contract states only what every run
  shares. The outcome protocol is stated by the lemmas of
  `CoordinatorProperties`.

=== FILE: adapter_transfer.dfy ===
/** A whole multi-thread copy over the offset adapter, chunk by chunk, with a
    source that honours range requests: every chunk succeeds and the
    destination ends up holding the source at [0, size). This composes the
    range math, copyChunk's direct-stream path (the adapter path never
    buffers), WriteChunk and the offsetWriter. */
module AdapterTransfer {
  import opened Wrappers
  import opened Fs
  import opened Chunks
  import opened OffsetWriter
  import opened CopyChunk
  import opened WriterAtChunkWriter
  import Planner
  import Coordinator
  import CoordinatorProperties

  /** The copy state multiThreadCopy builds on the adapter path: the part
      size is the configured chunk size capped at the source size, and the
      chunks are streamed without buffering. */
  function AdapterCopyState(size: int, chunkSize: int): (mc: CopyState)
    requires size > 0 && chunkSize > 0
    ensures mc.noSeek && mc.size == size
    ensures 0 < mc.partSize <= size
    ensures mc.numChunks >= 1 && (mc.numChunks - 1) * mc.partSize < size <= mc.numChunks * mc.partSize
  {
    var p := Min(chunkSize, size);
    CopyState(p, size, CalculateNumChunks(size, p), true)
  }

  /** The adapter copy state uses the part size and chunk count the planner
      computes from the adapter's info, whatever the stream settings. */
  lemma AdapterStateMatchesPlan(cfg: Config, size: int, requested: int)
    requires size > 0 && cfg.multiThreadChunkSize > 0
    ensures var mc := AdapterCopyState(size, cfg.multiThreadChunkSize);
      var p := Planner.Plan(size, requested, cfg.multiThreadSet, AdapterInfo(cfg));
      mc.partSize == p.partSize && mc.numChunks == p.numChunks
  {
  }

  /** Where chunk k of the adapter path lies: the same range whether computed
      from the part size or from the adapter's chunk size, BytesToWrite long,
      and requested from the source with an inclusive end. */
  lemma ChunkGeometry(size: int, chunkSize: int, wbs: int, k: int)
    requires size > 0 && chunkSize > 0
    requires 0 <= k < AdapterCopyState(size, chunkSize).numChunks
    ensures var mc := AdapterCopyState(size, chunkSize);
      var start := k * mc.partSize;
      var end := Min(start + mc.partSize, size);
      && start == k * chunkSize
      && 0 <= start < end <= size
      && end - start == BytesToWrite(OpenAdapter(size, chunkSize, wbs), k)
      && SourceRequest(mc, k) == Some(RangeOption(start, end - 1))
  {
    var mc := AdapterCopyState(size, chunkSize);
    AdapterChunksMatchPlan(size, chunkSize, wbs);
    ExpectedBytesMatchRange(size, chunkSize, wbs, k);
    MulMonotone(0, k, mc.partSize);
  }

  /** What the source's ranged open yields for a chunk (never consulted for a no-op chunk). */
  function OpenFor(mc: CopyState, data: seq<byte>, chunk: int): Result<seq<byte>, Cause>
  {
    match SourceRequest(mc, chunk)
    case None => Success([])
    case Some(o) => OpenRange(data, o)
  }

  /** The bytes of chunk i when data is cut into parts of p bytes; none for
      a chunk that starts past the end. */
  function ChunkBytes(data: seq<byte>, p: int, i: int): (b: seq<byte>)
    requires p > 0 && i >= 0
    ensures |b| == ChunkLen(p, |data|, i)
  {
    match ChunkRange(p, |data|, i)
    case None => []
    case Some(r) =>
      MulMonotone(0, i, p);
      data[r.start..r.end]
  }

  /** The work the pool runs for one chunk: given the chunk index and the
      destination as the goroutine finds it, the chunk's outcome and the
      destination afterwards. */
  type ChunkJob = (int, Sink) -> ChunkRun

  /** copyChunk over the offset adapter, with a source holding data. */
  function AdapterJob(data: seq<byte>, chunkSize: int, wbs: int): ChunkJob
    requires |data| > 0 && chunkSize > 0
  {
    var mc := AdapterCopyState(|data|, chunkSize);
    var w := OpenAdapter(|data|, chunkSize, wbs);
    (i: int, s: Sink) => CopyChunkToAdapter(mc, i, OpenFor(mc, data, i), w, s)
  }

  datatype Transfer = Transfer(outcomes: seq<Outcome<ChunkError>>, sink: Sink)

  /** The spawn loop of the pool, run sequentially over chunks 0 .. k-1:
      each chunk runs on the destination the previous one left behind, and
      once a chunk has failed no further chunk is started. */
  function RunChunks(job: ChunkJob, sink: Sink, k: nat): (t: Transfer)
    ensures |t.outcomes| <= k
    ensures AllPass(t.outcomes) ==> |t.outcomes| == k
    ensures forall i :: 0 <= i < |t.outcomes| - 1 ==> t.outcomes[i] == Pass
  {
    if k == 0 then Transfer([], sink)
    else
      var prev := RunChunks(job, sink, k - 1);
      if !AllPass(prev.outcomes) then prev
      else
        var r := job(k - 1, prev.sink);
        Transfer(prev.outcomes + [r.outcome], r.sink)
  }

  /** Once a run has stopped on a failure, running to a later bound changes nothing. */
  lemma {:induction false} StoppedStays(job: ChunkJob, sink: Sink, j: nat, k: nat)
    requires j <= k && !AllPass(RunChunks(job, sink, j).outcomes)
    decreases k
    ensures RunChunks(job, sink, k) == RunChunks(job, sink, j)
  {
    if j < k {
      StoppedStays(job, sink, j, k - 1);
    }
  }

  /** Running to a later bound only appends outcomes: the outcomes of a
      j-chunk run are a prefix of those of a k-chunk run. */
  lemma {:induction false} RunChunksPrefix(job: ChunkJob, sink: Sink, j: nat, k: nat)
    requires j <= k
    decreases k
    ensures RunChunks(job, sink, j).outcomes <= RunChunks(job, sink, k).outcomes
  {
    if j < k {
      RunChunksPrefix(job, sink, j, k - 1);
    }
  }

  /** Outcome i of a run is chunk i's job, run on the destination that
      chunks 0 .. i-1 left behind. */
  lemma {:induction false} RunChunksOutcome(job: ChunkJob, sink: Sink, k: nat, i: nat)
    requires i < |RunChunks(job, sink, k).outcomes|
    ensures RunChunks(job, sink, k).outcomes[i] == job(i, RunChunks(job, sink, i).sink).outcome
  {
    var prev := RunChunks(job, sink, i);
    if !AllPass(prev.outcomes) {
      StoppedStays(job, sink, i, k);
      assert false;
    }
    RunChunksPrefix(job, sink, i + 1, k);
    assert RunChunks(job, sink, i + 1).outcomes[i] == job(i, prev.sink).outcome;
  }

  /** The run stops exactly where the coordinator's spawn loop stops when
      it is fed the same outcomes: both start the same number of chunks. */
  lemma RunChunksMatchesSpawnLoop(job: ChunkJob, sink: Sink, k: nat, env: Coordinator.Env)
    requires env.chunkResults == RunChunks(job, sink, k).outcomes
    ensures Coordinator.SpawnLoop(env, k, 0).spawned == |RunChunks(job, sink, k).outcomes|
  {
    var t := RunChunks(job, sink, k);
    var e := Coordinator.SpawnLoop(env, k, 0);
    if e.firstError.None? {
      assert AllPass(t.outcomes) by {
        forall i | 0 <= i < |t.outcomes|
          ensures t.outcomes[i] == Pass
        {
          assert Coordinator.ChunkOutcome(env, i).Pass?;
        }
      }
    } else {
      assert Coordinator.ChunkOutcome(env, e.spawned - 1).Fail?;
    }
  }

  /** A job that, for each of the first n chunks and whatever destination it
      finds, succeeds and writes exactly that chunk's bytes at its start. */
  ghost predicate PlacesChunks(job: ChunkJob, data: seq<byte>, p: int, n: int)
    requires p > 0
  {
    forall i, s :: 0 <= i < n ==> job(i, s) == ChunkRun(Pass, WriteAt(s, ChunkBytes(data, p, i), i * p))
  }

  /** One chunk of the adapter path, on a source that honours range
      requests, succeeds and writes exactly its bytes at its start offset. */
  lemma ChunkStep(data: seq<byte>, chunkSize: int, wbs: int, sink: Sink, k: int)
    requires |data| > 0 && chunkSize > 0
    requires 0 <= k < AdapterCopyState(|data|, chunkSize).numChunks
    ensures var mc := AdapterCopyState(|data|, chunkSize);
      CopyChunkToAdapter(mc, k, OpenFor(mc, data, k), OpenAdapter(|data|, chunkSize, wbs), sink)
        == ChunkRun(Pass, WriteAt(sink, ChunkBytes(data, mc.partSize, k), k * mc.partSize))
  {
    var mc := AdapterCopyState(|data|, chunkSize);
    ChunkGeometry(|data|, chunkSize, wbs, k);
    var start := k * mc.partSize;
    var end := Min(start + mc.partSize, |data|);
    OpenForChunk(mc, data, k, start, end);
    assert ChunkBytes(data, mc.partSize, k) == data[start..end];
  }

  /** A well-behaved source answers the inclusive range request of a chunk
      with exactly the chunk's bytes. */
  lemma OpenForChunk(mc: CopyState, data: seq<byte>, k: int, start: int, end: int)
    requires 0 <= start < end <= |data|
    requires SourceRequest(mc, k) == Some(RangeOption(start, end - 1))
    ensures OpenFor(mc, data, k) == Success(data[start..end])
  {
  }

  lemma AdapterJobPlacesChunks(data: seq<byte>, chunkSize: int, wbs: int)
    requires |data| > 0 && chunkSize > 0
    ensures var mc := AdapterCopyState(|data|, chunkSize);
      PlacesChunks(AdapterJob(data, chunkSize, wbs), data, mc.partSize, mc.numChunks)
  {
    var mc := AdapterCopyState(|data|, chunkSize);
    var job := AdapterJob(data, chunkSize, wbs);
    forall i, s | 0 <= i < mc.numChunks
      ensures job(i, s) == ChunkRun(Pass, WriteAt(s, ChunkBytes(data, mc.partSize, i), i * mc.partSize))
    {
      ChunkStep(data, chunkSize, wbs, s, i);
    }
  }

  /** Every chunk outcome is a success. */
  predicate AllPass(outcomes: seq<Outcome<ChunkError>>)
  {
    forall i :: 0 <= i < |outcomes| ==> outcomes[i] == Pass
  }

  lemma AllPassAppend(outcomes: seq<Outcome<ChunkError>>)
    requires AllPass(outcomes)
    ensures AllPass(outcomes + [Pass])
  {
  }

  /** What the first k chunks of a job leave behind when they place their
      chunks: all succeeded, and the destination is the old one with the
      first min(k * p, size) bytes of data written at offset 0. */
  ghost predicate PlacedPrefix(job: ChunkJob, data: seq<byte>, p: int, sink: Sink, k: nat)
  {
    var t := RunChunks(job, sink, k);
    var covered := Min(k * p, |data|);
    && 0 <= covered <= |data|
    && AllPass(t.outcomes)
    && t.sink == WriteAt(sink, data[..covered], 0)
  }

  /** Running the first k chunks of a job that places its chunks leaves the
      first min(k * p, size) bytes of data in place. */
  lemma {:induction false} RunChunksPlacesData(job: ChunkJob, data: seq<byte>, p: int, sink: Sink, k: nat)
    requires |data| > 0 && p > 0
    requires k <= CalculateNumChunks(|data|, p)
    requires PlacesChunks(job, data, p, CalculateNumChunks(|data|, p))
    ensures PlacedPrefix(job, data, p, sink, k)
  {
    if k == 0 {
      assert data[..0] == [];
    } else {
      RunChunksPlacesData(job, data, p, sink, k - 1);
      PlacedPrefixStep(job, data, p, sink, k);
    }
  }

  /** The induction step: chunk k - 1 extends the placed prefix. */
  lemma PlacedPrefixStep(job: ChunkJob, data: seq<byte>, p: int, sink: Sink, k: nat)
    requires |data| > 0 && p > 0
    requires 1 <= k <= CalculateNumChunks(|data|, p)
    requires PlacesChunks(job, data, p, CalculateNumChunks(|data|, p))
    requires PlacedPrefix(job, data, p, sink, k - 1)
    ensures PlacedPrefix(job, data, p, sink, k)
  {
    var prev := RunChunks(job, sink, k - 1);
    var s := (k - 1) * p;
    var e := Min(s + p, |data|);
    ChunkSlice(data, p, k - 1);
    var r := job(k - 1, prev.sink);
    assert r.outcome == Pass;
    assert r.sink == WriteAt(prev.sink, data[s..e], s);
    AllPassAppend(prev.outcomes);
    PrefixConcat(sink, data, s, e);
    assert RunChunks(job, sink, k) == Transfer(prev.outcomes + [r.outcome], r.sink);
  }

  /** Chunk i is the slice of data from i * p to the next part boundary or the end. */
  lemma ChunkSlice(data: seq<byte>, p: int, i: int)
    requires |data| > 0 && p > 0
    requires 0 <= i < CalculateNumChunks(|data|, p)
    ensures var s := i * p;
      var e := Min(s + p, |data|);
      && 0 <= s < e <= |data|
      && Min(s, |data|) == s
      && Min((i + 1) * p, |data|) == e
      && ChunkBytes(data, p, i) == data[s..e]
  {
    MulMonotone(0, i, p);
    assert i * p + p == (i + 1) * p;
    if i * p >= |data| {
      MulMonotone(i + 1, CalculateNumChunks(|data|, p), p);
    }
  }

  /** Writing the source's first s bytes and then bytes [s, e) is writing its first e bytes. */
  lemma PrefixConcat(sink: Sink, data: seq<byte>, s: int, e: int)
    requires 0 <= s <= e <= |data|
    ensures WriteAt(WriteAt(sink, data[..s], 0), data[s..e], s) == WriteAt(sink, data[..e], 0)
  {
    WriteAtConcat(sink, data[..s], data[s..e], 0);
    assert data[..s] + data[s..e] == data[..e];
  }

  /** The whole transfer: every chunk succeeds and the destination ends up
      as one write of the whole source at offset 0, so it holds the source
      on [0, size) and every other offset keeps its contents. */
  lemma AdapterTransferCopiesSource(data: seq<byte>, chunkSize: int, wbs: int, sink: Sink)
    requires |data| > 0 && chunkSize > 0
    ensures var mc := AdapterCopyState(|data|, chunkSize);
      var t := RunChunks(AdapterJob(data, chunkSize, wbs), sink, mc.numChunks);
      && AllPass(t.outcomes)
      && t.sink == WriteAt(sink, data, 0)
  {
    var mc := AdapterCopyState(|data|, chunkSize);
    AdapterJobPlacesChunks(data, chunkSize, wbs);
    RunChunksPlacesData(AdapterJob(data, chunkSize, wbs), data, mc.partSize, sink, mc.numChunks);
    assert Min(mc.numChunks * mc.partSize, |data|) == |data|;
    assert data[..|data|] == data;
  }

  /** The chunk writes of two different chunks of the right sizes touch
      disjoint offsets, so they may reach the destination in either order. */
  lemma ChunkWritesCommute(size: int, chunkSize: int, wbs: int, sink: Sink, i: int, a: seq<byte>, j: int, b: seq<byte>)
    requires size > 0 && chunkSize > 0
    requires 0 <= i < j < OpenAdapter(size, chunkSize, wbs).chunks
    requires |a| == BytesToWrite(OpenAdapter(size, chunkSize, wbs), i)
    requires |b| == BytesToWrite(OpenAdapter(size, chunkSize, wbs), j)
    ensures var w := OpenAdapter(size, chunkSize, wbs);
      WriteChunk(w, WriteChunk(w, sink, i, a).sink, j, b).sink
        == WriteChunk(w, WriteChunk(w, sink, j, b).sink, i, a).sink
  {
    var w := OpenAdapter(size, chunkSize, wbs);
    ExpectedBytesMatchRange(size, chunkSize, wbs, i);
    ExpectedBytesMatchRange(size, chunkSize, wbs, j);
    var p := Min(chunkSize, size);
    ChunksTile(size, p);
    AdapterChunksMatchPlan(size, chunkSize, wbs);
    MulMonotone(i + 1, j, p);
    assert ChunkRange(p, size, i).value.end <= (i + 1) * p by {
      assert (i + 1) * p == i * p + p;
    }
    WriteAtCommute(sink, a, i * chunkSize, b, j * chunkSize);
  }

  /** The coordinator, fed the outcomes of this transfer on a destination
      that only has OpenWriterAt, succeeds when the writer opens, closes and
      is found again (and the destination does not take partial uploads). */
  lemma AdapterRunSucceeds(data: seq<byte>, cfg: Config, dst: DstFeatures, concurrency: int, env: Coordinator.Env, sink: Sink)
    requires |data| > 0 && cfg.multiThreadChunkSize > 0
    requires !dst.hasOpenChunkWriter && dst.hasOpenWriterAt && !dst.partialUploads
    requires env.writerAtOpen.Pass? && env.closeResult.Pass? && env.lookupResult.Pass?
    requires var mc := AdapterCopyState(|data|, cfg.multiThreadChunkSize);
      env.chunkResults == RunChunks(AdapterJob(data, cfg.multiThreadChunkSize, cfg.multiThreadWriteBufferSize),
                                    sink, mc.numChunks).outcomes
    ensures Coordinator.MultiThreadCopy(cfg, dst, |data|, concurrency, env).result == Pass
  {
    var mc := AdapterCopyState(|data|, cfg.multiThreadChunkSize);
    AdapterTransferCopiesSource(data, cfg.multiThreadChunkSize, cfg.multiThreadWriteBufferSize, sink);
    CoordinatorProperties.FinalizeErrors(cfg, dst, |data|, concurrency, env);
  }
}

=== FILE: chunks.dfy ===
/** Range math of the multi-thread copy: how many chunks a source of a given
    size is cut into, and which byte range each chunk index covers
    (fs/operations/multithread.go, calculateNumChunks and copyChunk). */
module Chunks {
  import opened Wrappers
  import opened GoInt

  /** A half-open byte range [start, end) of the source. */
  datatype ByteRange = ByteRange(start: int, end: int) {
    function Len(): int { end - start }
  }

  /** An HTTP-style range request: both ends inclusive. */
  datatype RangeOption = RangeOption(start: int, end: int)

  function Min(a: int, b: int): int { if a < b then a else b }
  function Max(a: int, b: int): int { if a < b then b else a }

  lemma MulMonotone(a: int, b: int, c: int)
    requires a <= b && c >= 0
    ensures a * c <= b * c
  {
    assert b * c - a * c == (b - a) * c;
  }

  lemma MulStrict(a: int, b: int, c: int)
    requires a < b && c > 0
    ensures a * c < b * c
  {
    assert b * c - a * c == (b - a) * c;
  }

  /** The number of chunks, rounded up so that numChunks * chunkSize >= size.
      Uses Go's truncating division, so a negative chunk size gives what Go gives. */
  function CalculateNumChunks(size: int, chunkSize: int): (n: int)
    requires chunkSize != 0
    ensures size > 0 && chunkSize > 0 ==> n >= 1 && n * chunkSize >= size && (n - 1) * chunkSize < size
  {
    var q := Quot(size, chunkSize);
    var r := Rem(size, chunkSize);
    var n := if r != 0 then q + 1 else q;
    if size > 0 && chunkSize > 0 then
      assert size == chunkSize * q + r && 0 <= r < chunkSize && q >= 0;
      assert n * chunkSize == chunkSize * q + (if r != 0 then chunkSize else 0);
      assert (n - 1) * chunkSize == chunkSize * q + (if r != 0 then 0 else -chunkSize);
      n
    else
      n
  }

  /** At most one count m satisfies m * chunkSize >= size > (m - 1) * chunkSize. */
  lemma CountBoundsUnique(size: int, chunkSize: int, m: int, n: int)
    requires chunkSize > 0
    requires m * chunkSize >= size && (m - 1) * chunkSize < size
    requires n * chunkSize >= size && (n - 1) * chunkSize < size
    ensures m == n
  {
    if m > n {
      MulMonotone(n, m - 1, chunkSize);
    } else if m < n {
      MulMonotone(m, n - 1, chunkSize);
    }
  }

  /** Those two bounds pin the count down: any m with
      m * chunkSize >= size > (m - 1) * chunkSize is the count
      CalculateNumChunks computes, and the ceiling of size / chunkSize. */
  lemma NumChunksIsCeiling(size: int, chunkSize: int, m: int)
    requires size > 0 && chunkSize > 0
    requires m * chunkSize >= size && (m - 1) * chunkSize < size
    ensures m == CalculateNumChunks(size, chunkSize)
    ensures m == (size + chunkSize - 1) / chunkSize
  {
    CountBoundsUnique(size, chunkSize, m, CalculateNumChunks(size, chunkSize));
    CeilingBounds(size, chunkSize);
    CountBoundsUnique(size, chunkSize, m, (size + chunkSize - 1) / chunkSize);
  }

  /** The usual ceiling formula meets the same two bounds. */
  lemma CeilingBounds(size: int, chunkSize: int)
    requires size > 0 && chunkSize > 0
    ensures var c := (size + chunkSize - 1) / chunkSize;
      c * chunkSize >= size && (c - 1) * chunkSize < size
  {
    var c := (size + chunkSize - 1) / chunkSize;
    DivModFacts(size + chunkSize - 1, chunkSize);
    assert c * chunkSize >= size;
    assert (c - 1) * chunkSize == c * chunkSize - chunkSize;
  }


  /** The byte range chunk `chunk` copies, or None when its start lies at or
      beyond the end of the source (the no-I/O early return of copyChunk). */
  function ChunkRange(partSize: int, size: int, chunk: int): (r: Option<ByteRange>)
    ensures r.None? <==> chunk * partSize >= size
    ensures r.Some? ==> r.value.start == chunk * partSize && r.value.end <= size
    ensures r.Some? && partSize > 0 ==> 0 < r.value.Len() <= partSize
    ensures r.Some? && r.value.end < size ==> r.value.Len() == partSize
  {
    var start := chunk * partSize;
    if start >= size then None
    else
      var end := if start + partSize > size then size else start + partSize;
      Some(ByteRange(start, end))
  }

  /** The range request copyChunk opens the source with: the same bytes, with an inclusive end. */
  function RangeRequest(r: ByteRange): (o: RangeOption)
    ensures o.start == r.start
    ensures o.end - o.start + 1 == r.Len()
  {
    RangeOption(r.start, r.end - 1)
  }

  /** Length of the range of chunk i, 0 for the no-op chunks. */
  function ChunkLen(partSize: int, size: int, i: int): int
  {
    match ChunkRange(partSize, size, i)
    case None => 0
    case Some(r) => r.Len()
  }

  /** Total length of the ranges of chunks 0 .. k-1. */
  function CoveredBytes(partSize: int, size: int, k: nat): int
  {
    if k == 0 then 0 else CoveredBytes(partSize, size, k - 1) + ChunkLen(partSize, size, k - 1)
  }

  /** Every chunk index in [0, numChunks) has a non-empty range, every later
      index has none, the first starts at 0, the last ends at size, and each
      range ends where the next begins. */
  lemma {:induction false} ChunksTile(size: int, partSize: int)
    requires size > 0 && partSize > 0
    ensures var n := CalculateNumChunks(size, partSize);
      && ChunkRange(partSize, size, 0) == Some(ByteRange(0, Min(partSize, size)))
      && ChunkRange(partSize, size, n - 1).Some?
      && ChunkRange(partSize, size, n - 1).value.end == size
      && (forall i :: 0 <= i < n ==> ChunkRange(partSize, size, i).Some?)
      && (forall i :: i >= n ==> ChunkRange(partSize, size, i).None?)
      && (forall i :: 0 <= i < n - 1 ==>
            ChunkRange(partSize, size, i).value.end == ChunkRange(partSize, size, i + 1).value.start)
  {
    var n := CalculateNumChunks(size, partSize);
    forall i | 0 <= i < n
      ensures ChunkRange(partSize, size, i).Some?
    {
      MulMonotone(i, n - 1, partSize);
    }
    forall i | i >= n
      ensures ChunkRange(partSize, size, i).None?
    {
      MulMonotone(n, i, partSize);
    }
    forall i | 0 <= i < n - 1
      ensures ChunkRange(partSize, size, i).value.end == ChunkRange(partSize, size, i + 1).value.start
    {
      MulMonotone(i + 1, n - 1, partSize);
      assert (i + 1) * partSize == i * partSize + partSize;
    }
    MulMonotone(n - 1, n, partSize);
  }

  /** Exactly one chunk index i >= 0 owns each offset: offset x lies in the range of chunk i
      iff x is inside the source and i == x / partSize. So the ranges are
      pairwise disjoint and their union is [0, size). */
  lemma {:induction false} ChunkOwnsOffset(size: int, partSize: int, x: int, i: int)
    requires size > 0 && partSize > 0 && i >= 0
    ensures (ChunkRange(partSize, size, i).Some?
             && ChunkRange(partSize, size, i).value.start <= x < ChunkRange(partSize, size, i).value.end)
        <==> (0 <= x < size && i == x / partSize)
  {
    var r := ChunkRange(partSize, size, i);
    if r.Some? && r.value.start <= x < r.value.end {
      MulMonotone(0, i, partSize);
      OwnerIsQuotient(x, partSize, i);
    }
    if 0 <= x < size && i == x / partSize {
      DivModFacts(x, partSize);
      assert i * partSize <= x < i * partSize + partSize;
    }
  }

  /** An offset in [i * p, i * p + p) with i * p >= 0 has quotient i. */
  lemma OwnerIsQuotient(x: int, p: int, i: int)
    requires p > 0 && 0 <= i * p <= x < i * p + p
    ensures x / p == i
  {
    if i < 0 {
      MulStrict(i, 0, p);
    }
    var q := x / p;
    DivModFacts(x, p);
    if q < i {
      MulMonotone(q + 1, i, p);
    } else if q > i {
      MulMonotone(i + 1, q, p);
    }
  }

  /** The lengths of the first k chunk ranges sum to min(k * partSize, size);
      in particular the ranges of all numChunks chunks sum to size. */
  lemma {:induction false} CoveredBytesIsPrefix(size: int, partSize: int, k: nat)
    requires size > 0 && partSize > 0
    ensures CoveredBytes(partSize, size, k) == Min(k * partSize, size)
  {
    if k > 0 {
      CoveredBytesIsPrefix(size, partSize, k - 1);
      assert k * partSize == (k - 1) * partSize + partSize;
    }
  }

  lemma ChunkLengthsSumToSize(size: int, partSize: int)
    requires size > 0 && partSize > 0
    ensures CoveredBytes(partSize, size, CalculateNumChunks(size, partSize)) == size
  {
    CoveredBytesIsPrefix(size, partSize, CalculateNumChunks(size, partSize));
  }

  /** A 1000-byte source in 300-byte parts: four chunks of 300, 300, 300 and
      100 bytes, the last requested as the inclusive range 900-999, and no
      fifth chunk. */
  lemma TilingExample()
    ensures CalculateNumChunks(1000, 300) == 4
    ensures ChunkRange(300, 1000, 0) == Some(ByteRange(0, 300))
    ensures ChunkRange(300, 1000, 2) == Some(ByteRange(600, 900))
    ensures ChunkRange(300, 1000, 3) == Some(ByteRange(900, 1000))
    ensures RangeRequest(ByteRange(900, 1000)) == RangeOption(900, 999)
    ensures ChunkRange(300, 1000, 4) == None
  {
  }
}

=== FILE: coordinator.dfy ===
/** The multi-thread copy coordinator (fs/operations/multithread.go,
    multiThreadCopy) as a sequential state machine over the abstract results
    of its collaborators. The worker pool is run one chunk at a time: each
    spawned chunk finishes before the loop checks for an error again, so
    the first failing chunk is the one whose error g.Wait returns. The run
    records the steps it takes, in order. In Go a chunk after a failing one
    can still be spawned, because the cancellation check comes before g.Go
    waits for a slot; that interleaving is not modelled. */
module Coordinator {
  import opened Wrappers
  import opened Fs
  import opened Chunks
  import opened Planner
  import opened CopyChunk
  import WriterAtChunkWriter

  /** What the collaborators answer. Chunk i's copyChunk result is
      chunkResults[i]; indices beyond the sequence succeed. */
  datatype Env = Env(
    nativeOpen: Result<ChunkWriterInfo, Cause>,  // OpenChunkWriter, when the destination has it
    writerAtOpen: Outcome<Cause>,                // OpenWriterAt, used otherwise
    chunkResults: seq<Outcome<ChunkError>>,
    closeResult: Outcome<Cause>,
    lookupResult: Outcome<Cause>,                // NewObject after Close
    modTime: ModTimeResult,
    abortResult: Outcome<Cause>)

  /** The errors multiThreadCopy returns. */
  datatype CopyError =
    | NoWriteCapability
    | UnknownSize
    | ZeroSize
    | OpenWriterFailed(cause: Cause)
    | ChunkFailed(chunk: int, err: ChunkError)
    | CloseFailed(cause: Cause)
    | LookupFailed(cause: Cause)
    | SetModTimeFailed(cause: Cause)

  /** Externally visible steps, in the order the coordinator takes them. */
  datatype Step =
    | OpenWriter
    | SetLimit(n: int)
    | Spawn(chunk: int)
    | Wait
    | CloseWriter
    | LookupObject
    | SetModTime
    | Abort

  datatype Run = Run(result: Outcome<CopyError>, trace: seq<Step>)

  /** The errors that can only arise once the chunk writer is open. */
  predicate AfterOpen(e: CopyError)
  {
    e.ChunkFailed? || e.CloseFailed? || e.LookupFailed? || e.SetModTimeFailed?
  }

  function ChunkOutcome(env: Env, i: int): Outcome<ChunkError>
  {
    if 0 <= i < |env.chunkResults| then env.chunkResults[i] else Pass
  }

  /** Go divides by the chunk writer's chunk size only once the writer has
      opened for a source with a positive size (the planner's chunk count,
      and the adapter's own count when it opens), and a zero divisor panics.
      Every other configuration, including a zero configured chunk size whose
      transfer stops earlier, is answered without dividing. */
  predicate NoZeroChunkSize(cfg: Config, dst: DstFeatures, srcSize: int, env: Env)
  {
    && (dst.hasOpenChunkWriter || dst.hasOpenWriterAt) && srcSize > 0
    && OpenChunkWriter(cfg, dst, env).Success?
    ==> OpenChunkWriter(cfg, dst, env).value.chunkSize != 0
  }

  /** Opening the chunk writer: the native one when the destination has it,
      otherwise the adapter over OpenWriterAt, whose info comes from the
      configuration. */
  function OpenChunkWriter(cfg: Config, dst: DstFeatures, env: Env): (r: Result<ChunkWriterInfo, Cause>)
    requires dst.hasOpenChunkWriter || dst.hasOpenWriterAt
    ensures dst.hasOpenChunkWriter ==> r == env.nativeOpen
    ensures !dst.hasOpenChunkWriter ==> (r.Success? <==> env.writerAtOpen.Pass?)
    ensures !dst.hasOpenChunkWriter && r.Success? ==> r.value == WriterAtChunkWriter.AdapterInfo(cfg)
  {
    if dst.hasOpenChunkWriter then env.nativeOpen
    else
      match env.writerAtOpen
      case Fail(c) => Failure(c)
      case Pass => Success(WriterAtChunkWriter.AdapterInfo(cfg))
  }

  /** Where the spawn loop ended: how many chunks it spawned and the error
      that stopped it, if any. */
  datatype LoopEnd = LoopEnd(spawned: int, firstError: Option<ChunkError>)

  /** The spawn loop from index `from`: spawn chunks in increasing order and
      stop after the first one that fails. */
  function SpawnLoop(env: Env, numChunks: int, from: nat): (e: LoopEnd)
    decreases numChunks - from
    ensures from <= e.spawned
    ensures e.spawned <= numChunks || e.spawned == from
    ensures forall i :: from <= i < e.spawned - 1 ==> ChunkOutcome(env, i).Pass?
    ensures e.firstError.None? ==> e.spawned == Max(numChunks, from)
    ensures e.firstError.None? ==> forall i :: from <= i < numChunks ==> ChunkOutcome(env, i).Pass?
    ensures e.firstError.Some? ==> from < e.spawned && ChunkOutcome(env, e.spawned - 1) == Fail(e.firstError.value)
  {
    if from >= numChunks then LoopEnd(from, None)
    else
      match ChunkOutcome(env, from)
      case Fail(err) => LoopEnd(from + 1, Some(err))
      case Pass => SpawnLoop(env, numChunks, from + 1)
  }

  /** [Spawn(0), ..., Spawn(k - 1)]. */
  function SpawnSteps(k: nat): (s: seq<Step>)
    ensures |s| == k
    ensures forall i :: 0 <= i < k ==> s[i] == Spawn(i)
  {
    if k == 0 then [] else SpawnSteps(k - 1) + [Spawn(k - 1)]
  }

  /** What happens after Close: the result and the steps taken past Close,
      which are at most the lookup and then SetModTime. */
  function Finish(dst: DstFeatures, env: Env, loop: LoopEnd): (r: Run)
    ensures r.trace <= [LookupObject, SetModTime]
    ensures r.result.Fail? ==> AfterOpen(r.result.error)
    ensures r.result.Pass? ==> r.trace != [] && (dst.partialUploads <==> |r.trace| == 2)
  {
    if loop.firstError.Some? then Run(Fail(ChunkFailed(loop.spawned - 1, loop.firstError.value)), [])
    else if env.closeResult.Fail? then Run(Fail(CloseFailed(env.closeResult.error)), [])
    else if env.lookupResult.Fail? then Run(Fail(LookupFailed(env.lookupResult.error)), [LookupObject])
    else if !dst.partialUploads then Run(Pass, [LookupObject])
    else
      match env.modTime
      case ModTimeError(c) => Run(Fail(SetModTimeFailed(c)), [LookupObject, SetModTime])
      case _ => Run(Pass, [LookupObject, SetModTime])
  }

  /** The steps of a run that opened its writer: open, set the pool limit
      to c, spawn chunks 0 .. k-1, wait, close, then `tail`. */
  function OpenedTrace(c: int, k: nat, tail: seq<Step>): (t: seq<Step>)
    ensures |t| == k + 4 + |tail|
    ensures t[0] == OpenWriter && t[k + 3] == CloseWriter
    ensures t[k + 4..] == tail
  {
    [OpenWriter, SetLimit(c)] + SpawnSteps(k) + [Wait, CloseWriter] + tail
  }

  /** The run once the chunk writer is open with `info`. The returned error
      triggers Abort unless the writer asked to leave parts in place; Abort's
      own result is never looked at. */
  function OpenedRun(cfg: Config, dst: DstFeatures, srcSize: int, concurrency: int, env: Env, info: ChunkWriterInfo): (run: Run)
    requires srcSize > 0 && info.chunkSize != 0
    ensures run.result.Pass? ==> CloseWriter in run.trace && LookupObject in run.trace
    ensures |run.trace| > 0 && run.trace[0] == OpenWriter
    ensures run.result.Fail? ==> AfterOpen(run.result.error)
  {
    var plan := Plan(srcSize, concurrency, cfg.multiThreadSet, info);
    var loop := SpawnLoop(env, plan.numChunks, 0);
    var fin := Finish(dst, env, loop);
    var abort := if fin.result.Fail? && !info.leavePartsOnError then [Abort] else [];
    var t := OpenedTrace(plan.concurrency, loop.spawned, fin.trace + abort);
    assert fin.result.Pass? ==> t[loop.spawned + 4] == LookupObject;
    Run(fin.result, t)
  }

  /** multiThreadCopy(f, remote, src, concurrency): the capability and size
      checks, then opening the chunk writer, then the opened run. */
  function MultiThreadCopy(cfg: Config, dst: DstFeatures, srcSize: int, concurrency: int, env: Env): (run: Run)
    requires NoZeroChunkSize(cfg, dst, srcSize, env)
    ensures run.result.Pass? ==> srcSize > 0 && CloseWriter in run.trace && LookupObject in run.trace
    ensures |run.trace| > 0 ==> run.trace[0] == OpenWriter
  {
    if !dst.hasOpenChunkWriter && !dst.hasOpenWriterAt then Run(Fail(NoWriteCapability), [])
    else if srcSize < 0 then Run(Fail(UnknownSize), [])
    else if srcSize == 0 then Run(Fail(ZeroSize), [])
    else
      match OpenChunkWriter(cfg, dst, env)
      case Failure(c) => Run(Fail(OpenWriterFailed(c)), [OpenWriter])
      case Success(info) => OpenedRun(cfg, dst, srcSize, concurrency, env, info)
  }
}

/** Properties of the coordinator's runs. */
module CoordinatorProperties {
  import opened Wrappers
  import opened Fs
  import opened Chunks
  import opened Planner
  import opened Coordinator
  import WriterAtChunkWriter
  import Eligibility

  /** The chunk writer's info, when the run gets as far as opening it successfully. */
  function OpenedInfo(cfg: Config, dst: DstFeatures, srcSize: int, env: Env): Option<ChunkWriterInfo>
  {
    if (dst.hasOpenChunkWriter || dst.hasOpenWriterAt) && srcSize > 0 && OpenChunkWriter(cfg, dst, env).Success?
    then Some(OpenChunkWriter(cfg, dst, env).value)
    else None
  }

  predicate Opens(cfg: Config, dst: DstFeatures, srcSize: int, env: Env)
  {
    OpenedInfo(cfg, dst, srcSize, env).Some?
  }

  function PlanFor(cfg: Config, dst: DstFeatures, srcSize: int, concurrency: int, env: Env): ChunkPlan
    requires NoZeroChunkSize(cfg, dst, srcSize, env) && Opens(cfg, dst, srcSize, env)
  {
    Plan(srcSize, concurrency, cfg.multiThreadSet, OpenedInfo(cfg, dst, srcSize, env).value)
  }

  /** How many chunks the spawn loop of an opened run starts. */
  function Spawned(cfg: Config, dst: DstFeatures, srcSize: int, concurrency: int, env: Env): int
    requires NoZeroChunkSize(cfg, dst, srcSize, env) && Opens(cfg, dst, srcSize, env)
  {
    SpawnLoop(env, PlanFor(cfg, dst, srcSize, concurrency, env).numChunks, 0).spawned
  }

  /** The capability check comes first, then the size checks; a run that
      fails any of them never tries to open a writer, so it cannot abort.
      Every other run tries to open the writer as its first step. */
  lemma ValidationBeforeOpen(cfg: Config, dst: DstFeatures, srcSize: int, concurrency: int, env: Env)
    requires NoZeroChunkSize(cfg, dst, srcSize, env)
    ensures var run := MultiThreadCopy(cfg, dst, srcSize, concurrency, env);
      && (run.result == Fail(NoWriteCapability) <==> !dst.hasOpenChunkWriter && !dst.hasOpenWriterAt)
      && (run.result == Fail(UnknownSize) <==> (dst.hasOpenChunkWriter || dst.hasOpenWriterAt) && srcSize < 0)
      && (run.result == Fail(ZeroSize) <==> (dst.hasOpenChunkWriter || dst.hasOpenWriterAt) && srcSize == 0)
      && (OpenWriter in run.trace <==> (dst.hasOpenChunkWriter || dst.hasOpenWriterAt) && srcSize > 0)
      && (OpenWriter !in run.trace ==> run.trace == [])
  {
    if (dst.hasOpenChunkWriter || dst.hasOpenWriterAt) && srcSize > 0 {
      var run := MultiThreadCopy(cfg, dst, srcSize, concurrency, env);
      assert run.trace[0] == OpenWriter;
      assert run.result.Fail? ==> AfterOpen(run.result.error) || run.result.error.OpenWriterFailed?;
    }
  }

  /** A writer that fails to open is reported wrapped and nothing follows. */
  lemma OpenFailureStopsRun(cfg: Config, dst: DstFeatures, srcSize: int, concurrency: int, env: Env)
    requires NoZeroChunkSize(cfg, dst, srcSize, env)
    requires (dst.hasOpenChunkWriter || dst.hasOpenWriterAt) && srcSize > 0
    requires OpenChunkWriter(cfg, dst, env).Failure?
    ensures MultiThreadCopy(cfg, dst, srcSize, concurrency, env)
      == Run(Fail(OpenWriterFailed(OpenChunkWriter(cfg, dst, env).error)), [OpenWriter])
  {
  }

  /** The steps of an opened run: open, set the pool limit to the planned
      concurrency (at least 1), spawn chunks 0, 1, ..., k-1 in order, wait,
      close; no other step spawns a chunk and Close happens exactly once. */
  lemma {:induction false} OpenedRunShape(cfg: Config, dst: DstFeatures, srcSize: int, concurrency: int, env: Env)
    requires NoZeroChunkSize(cfg, dst, srcSize, env) && Opens(cfg, dst, srcSize, env)
    ensures var run := MultiThreadCopy(cfg, dst, srcSize, concurrency, env);
      var k := Spawned(cfg, dst, srcSize, concurrency, env);
      && 0 <= k && k + 4 <= |run.trace|
      && run.trace[0] == OpenWriter
      && run.trace[1] == SetLimit(PlanFor(cfg, dst, srcSize, concurrency, env).concurrency)
      && PlanFor(cfg, dst, srcSize, concurrency, env).concurrency >= 1
      && (forall j :: 0 <= j < k ==> run.trace[2 + j] == Spawn(j))
      && run.trace[k + 2] == Wait
      && run.trace[k + 3] == CloseWriter
      && (forall j :: 0 <= j < |run.trace| && run.trace[j].Spawn? ==> 2 <= j < k + 2)
      && (forall j :: 0 <= j < |run.trace| && run.trace[j] == CloseWriter ==> j == k + 3)
  {
    var info := OpenedInfo(cfg, dst, srcSize, env).value;
    var plan := PlanFor(cfg, dst, srcSize, concurrency, env);
    var loop := SpawnLoop(env, plan.numChunks, 0);
    var fin := Finish(dst, env, loop);
    var abort: seq<Step> := if fin.result.Fail? && !info.leavePartsOnError then [Abort] else [];
    assert MultiThreadCopy(cfg, dst, srcSize, concurrency, env) == OpenedRun(cfg, dst, srcSize, concurrency, env, info);
    FinishingTail(fin.trace, abort);
    OpenedTraceShape(plan.concurrency, loop.spawned, fin.trace + abort);
  }

  /** After Close the run only looks the object up, sets its time or aborts. */
  lemma FinishingTail(fin: seq<Step>, abort: seq<Step>)
    requires fin <= [LookupObject, SetModTime] && abort <= [Abort]
    ensures forall j :: 0 <= j < |fin + abort| ==> (fin + abort)[j] in [LookupObject, SetModTime, Abort]
  {
  }

  /** Where each step of an opened trace sits, given a tail of finishing steps. */
  lemma OpenedTraceShape(c: int, k: nat, tail: seq<Step>)
    requires forall j :: 0 <= j < |tail| ==> tail[j] in [LookupObject, SetModTime, Abort]
    ensures var t := OpenedTrace(c, k, tail);
      && t[1] == SetLimit(c)
      && (forall j :: 0 <= j < k ==> t[2 + j] == Spawn(j))
      && t[k + 2] == Wait
      && (forall j :: 0 <= j < |t| && t[j].Spawn? ==> 2 <= j < k + 2)
      && (forall j :: 0 <= j < |t| && t[j] == CloseWriter ==> j == k + 3)
      && (forall j :: 0 <= j < k + 4 ==> t[j] != Abort)
  {
    var spawns := SpawnSteps(k);
    var t := OpenedTrace(c, k, tail);
    assert t == [OpenWriter, SetLimit(c)] + spawns + ([Wait, CloseWriter] + tail);
    forall j | 0 <= j < |t|
      ensures 2 <= j < k + 2 ==> t[j] == Spawn(j - 2)
      ensures j == k + 2 ==> t[j] == Wait
      ensures j >= k + 4 ==> t[j] == tail[j - k - 4]
    {
    }
  }

  /** The spawned chunks form a prefix of [0, numChunks): the loop stops
      early only right after a chunk that failed, and every chunk spawned
      before the last one succeeded. */
  lemma SpawnedIsPrefix(cfg: Config, dst: DstFeatures, srcSize: int, concurrency: int, env: Env)
    requires NoZeroChunkSize(cfg, dst, srcSize, env) && Opens(cfg, dst, srcSize, env)
    ensures var n := PlanFor(cfg, dst, srcSize, concurrency, env).numChunks;
      var k := Spawned(cfg, dst, srcSize, concurrency, env);
      && 0 <= k <= Max(n, 0)
      && (forall i :: 0 <= i < k - 1 ==> ChunkOutcome(env, i).Pass?)
      && (k < n ==> k >= 1 && ChunkOutcome(env, k - 1).Fail?)
  {
  }

  /** The first failing chunk decides the result, whatever Close, NewObject
      or SetModTime would have answered. */
  lemma ChunkErrorWins(cfg: Config, dst: DstFeatures, srcSize: int, concurrency: int, env: Env, i: int)
    requires NoZeroChunkSize(cfg, dst, srcSize, env) && Opens(cfg, dst, srcSize, env)
    requires 0 <= i < PlanFor(cfg, dst, srcSize, concurrency, env).numChunks
    requires ChunkOutcome(env, i).Fail?
    requires forall j :: 0 <= j < i ==> ChunkOutcome(env, j).Pass?
    ensures MultiThreadCopy(cfg, dst, srcSize, concurrency, env).result
      == Fail(ChunkFailed(i, ChunkOutcome(env, i).error))
    ensures Spawned(cfg, dst, srcSize, concurrency, env) == i + 1
  {
  }

  /** An opened run succeeds exactly when every chunk, Close and the lookup
      succeed and, on a destination with partial uploads, SetModTime either
      succeeds or fails with one of the two tolerated errors. */
  lemma SuccessIff(cfg: Config, dst: DstFeatures, srcSize: int, concurrency: int, env: Env)
    requires NoZeroChunkSize(cfg, dst, srcSize, env) && Opens(cfg, dst, srcSize, env)
    ensures var n := PlanFor(cfg, dst, srcSize, concurrency, env).numChunks;
      MultiThreadCopy(cfg, dst, srcSize, concurrency, env).result.Pass?
      <==>
      && (forall i :: 0 <= i < n ==> ChunkOutcome(env, i).Pass?)
      && env.closeResult.Pass?
      && env.lookupResult.Pass?
      && (dst.partialUploads ==> !env.modTime.ModTimeError?)
  {
    var n := PlanFor(cfg, dst, srcSize, concurrency, env).numChunks;
    var loop := SpawnLoop(env, n, 0);
    if loop.firstError.Some? {
      assert ChunkOutcome(env, loop.spawned - 1).Fail?;
    }
  }

  /** Once every chunk succeeded: a Close error fails the run; after a good
      Close a failed lookup is fatal; SetModTime errors other than the two
      "cannot set" kinds are fatal on destinations with partial uploads. */
  lemma FinalizeErrors(cfg: Config, dst: DstFeatures, srcSize: int, concurrency: int, env: Env)
    requires NoZeroChunkSize(cfg, dst, srcSize, env) && Opens(cfg, dst, srcSize, env)
    requires forall i :: 0 <= i < PlanFor(cfg, dst, srcSize, concurrency, env).numChunks ==> ChunkOutcome(env, i).Pass?
    ensures var r := MultiThreadCopy(cfg, dst, srcSize, concurrency, env).result;
      && (env.closeResult.Fail? ==> r == Fail(CloseFailed(env.closeResult.error)))
      && (env.closeResult.Pass? && env.lookupResult.Fail? ==> r == Fail(LookupFailed(env.lookupResult.error)))
      && (env.closeResult.Pass? && env.lookupResult.Pass? && dst.partialUploads && env.modTime.ModTimeError? ==>
            r == Fail(SetModTimeFailed(env.modTime.cause)))
      && (env.closeResult.Pass? && env.lookupResult.Pass? && !dst.partialUploads ==> r == Pass)
  {
  }

  /** Abort is the last step of exactly the opened runs that fail while the
      writer did not ask to leave parts on error, and it happens once. */
  lemma AbortExactlyOnceOnFailure(cfg: Config, dst: DstFeatures, srcSize: int, concurrency: int, env: Env)
    requires NoZeroChunkSize(cfg, dst, srcSize, env)
    ensures var run := MultiThreadCopy(cfg, dst, srcSize, concurrency, env);
      && (Abort in run.trace <==>
            Opens(cfg, dst, srcSize, env) && run.result.Fail? && !OpenedInfo(cfg, dst, srcSize, env).value.leavePartsOnError)
      && (Abort in run.trace ==> run.trace[|run.trace| - 1] == Abort && Abort !in run.trace[..|run.trace| - 1])
  {
    if Opens(cfg, dst, srcSize, env) {
      var info := OpenedInfo(cfg, dst, srcSize, env).value;
      assert MultiThreadCopy(cfg, dst, srcSize, concurrency, env) == OpenedRun(cfg, dst, srcSize, concurrency, env, info);
      OpenedRunAborts(cfg, dst, srcSize, concurrency, env, info);
    }
  }

  /** In an opened run, Abort is the last step exactly when the run fails and
      the writer did not ask to leave parts, and it happens once. */
  lemma OpenedRunAborts(cfg: Config, dst: DstFeatures, srcSize: int, concurrency: int, env: Env, info: ChunkWriterInfo)
    requires srcSize > 0 && info.chunkSize != 0
    ensures var run := OpenedRun(cfg, dst, srcSize, concurrency, env, info);
      && (Abort in run.trace <==> run.result.Fail? && !info.leavePartsOnError)
      && (Abort in run.trace ==> run.trace[|run.trace| - 1] == Abort && Abort !in run.trace[..|run.trace| - 1])
  {
    var plan := Plan(srcSize, concurrency, cfg.multiThreadSet, info);
    var loop := SpawnLoop(env, plan.numChunks, 0);
    var fin := Finish(dst, env, loop);
    var abort: seq<Step> := if fin.result.Fail? && !info.leavePartsOnError then [Abort] else [];
    TraceAborts(plan.concurrency, loop.spawned, fin.trace, abort);
  }

  /** An opened trace holds Abort exactly when its tail ends with it, and then only there. */
  lemma TraceAborts(c: int, k: nat, fin: seq<Step>, abort: seq<Step>)
    requires fin <= [LookupObject, SetModTime] && abort <= [Abort]
    ensures var t := OpenedTrace(c, k, fin + abort);
      && (Abort in t <==> abort == [Abort])
      && (Abort in t ==> t[|t| - 1] == Abort && Abort !in t[..|t| - 1])
  {
    var t := OpenedTrace(c, k, fin + abort);
    FinishingTail(fin, abort);
    OpenedTraceShape(c, k, fin + abort);
    assert Abort !in fin;
    if abort == [] {
      assert Abort !in t by {
        assert t[k + 4..] == fin;
      }
    } else {
      assert t[|t| - 1] == Abort;
      assert Abort !in t[..|t| - 1] by {
        forall j | 0 <= j < |t| - 1
          ensures t[j] != Abort
        {
          if j >= k + 4 {
            assert t[j] == fin[j - k - 4];
          }
        }
      }
    }
  }

  /** The offset adapter never asks to leave parts, so an opened adapter run
      ends with Abort exactly when it fails; that is the call through which
      the adapter removes the partial object. */
  lemma AdapterFailureAborts(cfg: Config, dst: DstFeatures, srcSize: int, concurrency: int, env: Env)
    requires NoZeroChunkSize(cfg, dst, srcSize, env) && Opens(cfg, dst, srcSize, env)
    requires !dst.hasOpenChunkWriter
    ensures var run := MultiThreadCopy(cfg, dst, srcSize, concurrency, env);
      |run.trace| > 0 && (run.result.Fail? <==> run.trace[|run.trace| - 1] == Abort)
  {
    OpenedRunShape(cfg, dst, srcSize, concurrency, env);
    AbortExactlyOnceOnFailure(cfg, dst, srcSize, concurrency, env);
  }

  /** On the adapter path, a failing opened run ends by calling the
      adapter's Abort, which removes the partial object only if its lookup
      finds it; whatever the lookup and the removal answer, the run returns
      the same error and takes the same steps. */
  lemma AdapterAbortOnFailure(cfg: Config, dst: DstFeatures, srcSize: int, concurrency: int, env: Env,
                              lookup: Outcome<Cause>, remove: Outcome<Cause>)
    requires NoZeroChunkSize(cfg, dst, srcSize, env) && Opens(cfg, dst, srcSize, env)
    requires !dst.hasOpenChunkWriter
    requires MultiThreadCopy(cfg, dst, srcSize, concurrency, env).result.Fail?
    ensures var a := WriterAtChunkWriter.Abort(lookup, remove);
      var run := MultiThreadCopy(cfg, dst, srcSize, concurrency, env.(abortResult := WriterAtChunkWriter.AbortReturn(a)));
      && run == MultiThreadCopy(cfg, dst, srcSize, concurrency, env)
      && |run.trace| > 0 && run.trace[|run.trace| - 1] == Abort
      && (a.removeAttempted <==> lookup.Pass?)
  {
    var a := WriterAtChunkWriter.Abort(lookup, remove);
    AbortResultNeverReturned(cfg, dst, srcSize, concurrency, env, WriterAtChunkWriter.AbortReturn(a));
    AdapterFailureAborts(cfg, dst, srcSize, concurrency, env);
  }

  /** Whatever Abort answers, the run returns the same error and takes the same steps. */
  lemma AbortResultNeverReturned(cfg: Config, dst: DstFeatures, srcSize: int, concurrency: int, env: Env, abortResult: Outcome<Cause>)
    requires NoZeroChunkSize(cfg, dst, srcSize, env)
    ensures MultiThreadCopy(cfg, dst, srcSize, concurrency, env.(abortResult := abortResult))
      == MultiThreadCopy(cfg, dst, srcSize, concurrency, env)
  {
    var env' := env.(abortResult := abortResult);
    assert OpenChunkWriter.requires(cfg, dst, env) ==> OpenChunkWriter(cfg, dst, env') == OpenChunkWriter(cfg, dst, env);
    if Opens(cfg, dst, srcSize, env) {
      OpenedRunDependsOnResults(cfg, dst, srcSize, concurrency, env', env, OpenedInfo(cfg, dst, srcSize, env).value);
    }
  }

  /** An opened run reads only the chunk, Close, lookup and SetModTime results. */
  lemma OpenedRunDependsOnResults(cfg: Config, dst: DstFeatures, srcSize: int, concurrency: int, e1: Env, e2: Env, info: ChunkWriterInfo)
    requires srcSize > 0 && info.chunkSize != 0
    requires e1.chunkResults == e2.chunkResults && e1.closeResult == e2.closeResult
    requires e1.lookupResult == e2.lookupResult && e1.modTime == e2.modTime
    ensures OpenedRun(cfg, dst, srcSize, concurrency, e1, info) == OpenedRun(cfg, dst, srcSize, concurrency, e2, info)
  {
    SpawnLoopDependsOnChunks(e1, e2, Plan(srcSize, concurrency, cfg.multiThreadSet, info).numChunks, 0);
  }

  lemma {:induction false} SpawnLoopDependsOnChunks(e1: Env, e2: Env, n: int, from: nat)
    requires e1.chunkResults == e2.chunkResults
    ensures SpawnLoop(e1, n, from) == SpawnLoop(e2, n, from)
    decreases n - from
  {
    if from < n && ChunkOutcome(e1, from).Pass? {
      SpawnLoopDependsOnChunks(e1, e2, n, from + 1);
    }
  }

  /** A destination with a native chunk writer never touches OpenWriterAt. */
  lemma NativeWriterPreferred(cfg: Config, dst: DstFeatures, srcSize: int, concurrency: int, env: Env, writerAtOpen: Outcome<Cause>)
    requires NoZeroChunkSize(cfg, dst, srcSize, env) && dst.hasOpenChunkWriter
    ensures MultiThreadCopy(cfg, dst, srcSize, concurrency, env.(writerAtOpen := writerAtOpen))
      == MultiThreadCopy(cfg, dst, srcSize, concurrency, env)
  {
    var env' := env.(writerAtOpen := writerAtOpen);
    if Opens(cfg, dst, srcSize, env) {
      OpenedRunDependsOnResults(cfg, dst, srcSize, concurrency, env', env, OpenedInfo(cfg, dst, srcSize, env).value);
    }
  }

  /** A transfer the eligibility check admits always finds a way to write,
      and with a positive cutoff it also passes the size checks and tries to open the writer. */
  lemma EligibleTransferOpensWriter(cfg: Config, src: SrcFeatures, dst: DstFeatures, srcSize: int, concurrency: int, env: Env)
    requires NoZeroChunkSize(cfg, dst, srcSize, env)
    requires Eligibility.DoMultiThreadCopy(cfg, src, srcSize, dst)
    ensures MultiThreadCopy(cfg, dst, srcSize, concurrency, env).result != Fail(NoWriteCapability)
    ensures cfg.multiThreadCutoff > 0 ==> OpenWriter in MultiThreadCopy(cfg, dst, srcSize, concurrency, env).trace
  {
    ValidationBeforeOpen(cfg, dst, srcSize, concurrency, env);
  }
}

=== FILE: copy_chunk.dfy ===
/** One unit of work of the multi-thread copy: copy chunk `chunk` of the
    source into the chunk writer (fs/operations/multithread.go, copyChunk).
    The ranged open of the source is an input: the bytes the source's stream
    delivers for the requested range, or the error opening it. */
module CopyChunk {
  import opened Wrappers
  import opened Fs
  import opened Chunks
  import opened OffsetWriter
  import WriterAtChunkWriter

  /** multiThreadCopyState: the part size, the source size, the chunk count
      and whether the chunks may be streamed without buffering. */
  datatype CopyState = CopyState(partSize: int, size: int, numChunks: int, noSeek: bool)

  /** Why a chunk failed; each variant is one of copyChunk's wrapped errors. */
  datatype ChunkError =
    | OpenSourceFailed(cause: Cause)
    | ReadChunkFailed(got: int, wanted: int)
    | WriteChunkFailed(err: WriterAtChunkWriter.WriteError)

  /** What copyChunk hands to the writer, if anything. */
  datatype ReadStep =
    | NoOp
    | ReadError(err: ChunkError)
    | Hand(range: ByteRange, reader: seq<byte>)

  /** The request copyChunk would open the source with, when it opens it at all. */
  function SourceRequest(mc: CopyState, chunk: int): (o: Option<RangeOption>)
    ensures o.None? <==> chunk * mc.partSize >= mc.size
    ensures o.Some? ==> o.value.start == chunk * mc.partSize && o.value.end < mc.size
    ensures o.Some? ==> o.value.end == Min(chunk * mc.partSize + mc.partSize, mc.size) - 1
  {
    match ChunkRange(mc.partSize, mc.size, chunk)
    case None => None
    case Some(r) => Some(RangeRequest(r))
  }

  /** The read half of copyChunk. A chunk starting at or past the end is a
      no-op success that never opens the source. Otherwise the source is
      opened for the range; in direct mode (noSeek) the stream goes to the
      writer as it is; in buffered mode exactly the range's length is copied
      into a buffer first, and a stream that ends early is an error. */
  function ReadChunk(mc: CopyState, chunk: int, opening: Result<seq<byte>, Cause>): (s: ReadStep)
    ensures s.NoOp? <==> chunk * mc.partSize >= mc.size
    ensures s.Hand? ==> s.range.start == chunk * mc.partSize && s.range.end <= mc.size
    ensures s.Hand? ==> opening.Success? && s.reader <= opening.value
    ensures s.Hand? && !mc.noSeek && mc.partSize > 0 ==> |s.reader| == s.range.Len()
    ensures s.Hand? && mc.noSeek ==> s.reader == opening.value
    ensures s.ReadError? && opening.Failure? ==> s.err == OpenSourceFailed(opening.error)
    ensures s.ReadError? && opening.Success? ==>
      && !mc.noSeek && s.err.ReadChunkFailed? && s.err.got == |opening.value| < s.err.wanted
      && s.err.wanted == ChunkRange(mc.partSize, mc.size, chunk).value.Len()
    ensures !mc.noSeek && opening.Success? && ChunkRange(mc.partSize, mc.size, chunk).Some? ==>
      (s.Hand? <==> |opening.value| >= ChunkRange(mc.partSize, mc.size, chunk).value.Len())
  {
    match ChunkRange(mc.partSize, mc.size, chunk)
    case None => NoOp
    case Some(r) =>
      match opening
      case Failure(c) => ReadError(OpenSourceFailed(c))
      case Success(stream) =>
        if mc.noSeek then Hand(r, stream)
        // io.CopyN of a non-positive count copies nothing and succeeds
        else if |stream| < r.Len() then ReadError(ReadChunkFailed(|stream|, r.Len()))
        else Hand(r, stream[..Max(r.Len(), 0)])
  }

  datatype ChunkRun = ChunkRun(outcome: Outcome<ChunkError>, sink: Sink)

  /** copyChunk over the offset adapter: read the chunk, then WriteChunk it. */
  function CopyChunkToAdapter(mc: CopyState, chunk: int, opening: Result<seq<byte>, Cause>,
                              w: WriterAtChunkWriter.Adapter, sink: Sink): (r: ChunkRun)
    requires w.chunkSize != 0
    ensures chunk * mc.partSize >= mc.size ==> r == ChunkRun(Pass, sink)
    ensures opening.Failure? && chunk * mc.partSize < mc.size ==> r == ChunkRun(Fail(OpenSourceFailed(opening.error)), sink)
    ensures mc.noSeek && opening.Success? && chunk * mc.partSize < mc.size ==>
      (r.outcome.Pass? <==> |opening.value| == WriterAtChunkWriter.BytesToWrite(w, chunk))
    ensures mc.noSeek && opening.Success? && chunk * mc.partSize < mc.size && r.outcome.Pass? ==>
      r.sink == WriteAt(sink, opening.value, chunk * w.chunkSize)
    ensures mc.noSeek && opening.Success? && chunk * mc.partSize < mc.size && r.outcome.Fail? ==>
      r.sink == WriteAt(sink, opening.value[..WriterAtChunkWriter.FlushedBeforeCheck(w, |opening.value|)], chunk * w.chunkSize)
  {
    match ReadChunk(mc, chunk, opening)
    case NoOp => ChunkRun(Pass, sink)
    case ReadError(e) => ChunkRun(Fail(e), sink)
    case Hand(_, reader) =>
      var wr := WriterAtChunkWriter.WriteChunk(w, sink, chunk, reader);
      match wr.err
      case Some(e) => ChunkRun(Fail(WriteChunkFailed(e)), wr.sink)
      case None => ChunkRun(Pass, wr.sink)
  }

  /** A source that honours range requests: the inclusive range [start, end]
      of data, clipped to the data. */
  function OpenRange(data: seq<byte>, o: RangeOption): (r: Result<seq<byte>, Cause>)
    ensures r.Success?
    ensures 0 <= o.start <= o.end < |data| ==> r.value == data[o.start..o.end + 1]
  {
    var lo := if o.start < 0 then 0 else if o.start > |data| then |data| else o.start;
    var hi := if o.end + 1 < lo then lo else if o.end + 1 > |data| then |data| else o.end + 1;
    Success(data[lo..hi])
  }
}

=== FILE: eligibility.dfy ===
/** Whether a transfer should use the multi-thread copy at all
    (fs/operations/multithread.go, doMultiThreadCopy). */
module Eligibility {
  import opened Fs

  /** Checks in source order; the first that matches disables multi-thread copy. */
  function DoMultiThreadCopy(cfg: Config, src: SrcFeatures, srcSize: int, dst: DstFeatures): (r: bool)
    ensures r <==>
      && cfg.multiThreadStreams > 1
      && !src.noMultiThreading
      && srcSize >= cfg.multiThreadCutoff
      && (dst.hasOpenChunkWriter || dst.hasOpenWriterAt)
      && !(!cfg.multiThreadSet && dst.isLocal && src.isLocal)
  {
    if cfg.multiThreadStreams <= 1 then false                       // not configured
    else if src.noMultiThreading then false                         // source does not support it
    else if srcSize < cfg.multiThreadCutoff then false              // below the cutoff
    else if !dst.hasOpenChunkWriter && !dst.hasOpenWriterAt then false  // destination does not support it
    else if !cfg.multiThreadSet && dst.isLocal && src.isLocal then false  // local to local, streams not set
    else true
  }
}

=== FILE: fs_types.dfy ===
/** The values the multi-thread copy reads from rclone's fs package: the
    configuration record, the feature flags of the two remotes, and the
    chunk-writer capability descriptor. Errors returned by collaborators the
    model cannot see are abstract causes. */
module Fs {

  /** An error value produced by a collaborator (backend, reader, writer). */
  datatype Cause = Cause(id: nat)

  /** The configuration fields the engine consults, passed explicitly. */
  datatype Config = Config(
    multiThreadStreams: int,         // --multi-thread-streams
    multiThreadSet: bool,            // whether the operator set it explicitly
    multiThreadCutoff: int,          // --multi-thread-cutoff
    multiThreadChunkSize: int,       // --multi-thread-chunk-size
    multiThreadWriteBufferSize: int) // --multi-thread-write-buffer-size

  /** Feature flags of the source remote. */
  datatype SrcFeatures = SrcFeatures(noMultiThreading: bool, isLocal: bool)

  /** Feature flags of the destination remote; the two write capabilities
      are optional functions in rclone, present or absent here. */
  datatype DstFeatures = DstFeatures(
    hasOpenChunkWriter: bool,
    hasOpenWriterAt: bool,
    isLocal: bool,
    partialUploads: bool)

  /** What a chunk writer reports when it is opened. */
  datatype ChunkWriterInfo = ChunkWriterInfo(chunkSize: int, concurrency: int, leavePartsOnError: bool)

  /** Outcome of SetModTime on the committed object. */
  datatype ModTimeResult =
    | ModTimeSet
    | ErrorCantSetModTime
    | ErrorCantSetModTimeWithoutDelete
    | ModTimeError(cause: Cause)
}

=== FILE: go_int.dfy ===
/** Go's integer division and remainder. Go truncates the quotient toward
    zero, so the remainder takes the sign of the dividend; Dafny's own `/`
    and `%` are Euclidean. Division by zero panics in Go, hence the
    `requires b != 0`. */
module GoInt {

  function Abs(x: int): (r: nat)
    ensures r == x || r == -x
  {
    if x < 0 then -x else x
  }

  /** Euclidean division of a non-negative number by a positive one. */
  lemma DivModFacts(x: nat, y: int)
    requires y > 0
    ensures x == y * (x / y) + x % y
    ensures 0 <= x % y < y
    ensures 0 <= x / y
  {
  }

  /** Go's `a / b`: the quotient of the magnitudes, negated when the signs differ. */
  function Quot(a: int, b: int): (q: int)
    requires b != 0
    ensures a >= 0 && b > 0 ==> q == a / b
    ensures (a >= 0) == (b > 0) ==> q >= 0
    ensures (a >= 0) != (b > 0) ==> q <= 0
  {
    DivModFacts(Abs(a), Abs(b));
    if (a >= 0) == (b > 0) then Abs(a) / Abs(b) else -(Abs(a) / Abs(b))
  }

  /** Go's `a % b`: what is left of a after b * Quot(a, b); its magnitude
      is the remainder of the magnitudes and its sign is the dividend's. */
  function Rem(a: int, b: int): (r: int)
    requires b != 0
    ensures a == b * Quot(a, b) + r
    ensures Abs(r) < Abs(b)
    ensures a >= 0 ==> r >= 0
    ensures a <= 0 ==> r <= 0
    ensures a >= 0 && b > 0 ==> r == a % b
  {
    DivModFacts(Abs(a), Abs(b));
    RemMagnitude(a, b);
    a - b * Quot(a, b)
  }

  lemma RemMagnitude(a: int, b: int)
    requires b != 0
    ensures a - b * Quot(a, b) == if a >= 0 then Abs(a) % Abs(b) else -(Abs(a) % Abs(b))
  {
    var m := Abs(a) / Abs(b);
    DivModFacts(Abs(a), Abs(b));
    var q := Quot(a, b);
    if a >= 0 && b > 0 {
      assert q == m && b * q == Abs(b) * m;
    } else if a >= 0 {
      assert q == -m && Abs(b) == -b;
      assert b * q == Abs(b) * m;
    } else if b > 0 {
      assert q == -m && Abs(a) == -a;
      assert b * q == -(Abs(b) * m);
    } else {
      assert q == m && Abs(b) == -b && Abs(a) == -a;
      assert b * q == -(Abs(b) * m);
    }
  }
}

=== FILE: offset_writer.dfy ===
/** The random-access destination and the offsetWriter that turns it into a
    sequential writer (fs/operations/multithread.go, offsetWriter). The
    destination's contents are a map from absolute offset to byte; WriteAt
    always accepts the whole slice. */
module OffsetWriter {

  newtype byte = b: int | 0 <= b < 256

  /** Contents of the random-access destination, by absolute offset. */
  type Sink = map<int, byte>

  /** Size of the buffer io.Copy moves data through. */
  const CopyBufferSize: nat := 32 * 1024

  /** The destination holds p at offsets [off, off + |p|). */
  ghost predicate Holds(s: Sink, p: seq<byte>, off: int)
  {
    forall x :: off <= x < off + |p| ==> x in s && s[x] == p[x - off]
  }

  /** Every offset `before` has outside [lo, hi) is still there, unchanged, in `after`. */
  ghost predicate UnchangedOutside(before: Sink, after: Sink, lo: int, hi: int)
  {
    forall x :: x in before && !(lo <= x < hi) ==> x in after && after[x] == before[x]
  }

  /** WriterAt.WriteAt(p, off), one byte after the other: p[j] lands at off + j.
      No later byte goes back over an earlier offset, so the last byte of p
      is the one found at the end of the window. */
  function WriteAt(sink: Sink, p: seq<byte>, off: int): (r: Sink)
    decreases |p|
  {
    if |p| == 0 then sink else WriteAt(sink[off := p[0]], p[1..], off + 1)
  }

  /** What WriteAt leaves behind: p at [off, off + |p|), every other offset
      as it was, and no offset outside the two. */
  lemma {:induction false} WriteAtPlaces(sink: Sink, p: seq<byte>, off: int)
    decreases |p|
    ensures Holds(WriteAt(sink, p, off), p, off)
    ensures UnchangedOutside(sink, WriteAt(sink, p, off), off, off + |p|)
    ensures forall x :: x in WriteAt(sink, p, off) <==> x in sink || off <= x < off + |p|
  {
    if |p| > 0 {
      var s1 := sink[off := p[0]];
      WriteAtPlaces(s1, p[1..], off + 1);
      var r := WriteAt(sink, p, off);
      assert r == WriteAt(s1, p[1..], off + 1);
      forall x | off <= x < off + |p|
        ensures x in r && r[x] == p[x - off]
      {
        if x > off {
          assert p[1..][x - (off + 1)] == p[x - off];
        }
      }
    }
  }

  /** Two writes that abut form one write of the concatenation. */
  lemma {:induction false} WriteAtConcat(sink: Sink, a: seq<byte>, b: seq<byte>, off: int)
    decreases |a|
    ensures WriteAt(WriteAt(sink, a, off), b, off + |a|) == WriteAt(sink, a + b, off)
  {
    if |a| > 0 {
      var s1 := sink[off := a[0]];
      WriteAtConcat(s1, a[1..], b, off + 1);
      assert (a + b)[0] == a[0];
      assert (a + b)[1..] == a[1..] + b;
      calc {
        WriteAt(WriteAt(sink, a, off), b, off + |a|);
        WriteAt(WriteAt(s1, a[1..], off + 1), b, off + 1 + |a[1..]|);
        WriteAt(s1, a[1..] + b, off + 1);
        WriteAt(s1, (a + b)[1..], off + 1);
        WriteAt(sink, a + b, off);
      }
    } else {
      assert a + b == b;
    }
  }

  /** A byte stored outside a write's window may be stored before or after it. */
  lemma {:induction false} WriteAtUpdate(sink: Sink, p: seq<byte>, off: int, x: int, v: byte)
    requires !(off <= x < off + |p|)
    decreases |p|
    ensures WriteAt(sink[x := v], p, off) == WriteAt(sink, p, off)[x := v]
  {
    if |p| > 0 {
      assert sink[x := v][off := p[0]] == sink[off := p[0]][x := v];
      WriteAtUpdate(sink[off := p[0]], p[1..], off + 1, x, v);
    }
  }

  /** Writes to disjoint windows commute: the order in which concurrent
      chunk writers reach the destination does not matter. */
  lemma {:induction false} WriteAtCommute(sink: Sink, a: seq<byte>, offA: int, b: seq<byte>, offB: int)
    requires offA + |a| <= offB || offB + |b| <= offA
    decreases |a|
    ensures WriteAt(WriteAt(sink, a, offA), b, offB) == WriteAt(WriteAt(sink, b, offB), a, offA)
  {
    if |a| > 0 {
      WriteAtCommute(sink[offA := a[0]], a[1..], offA + 1, b, offB);
      WriteAtUpdate(sink, b, offB, offA, a[0]);
    }
  }

  /** The adapter's cursor: the next absolute offset to write at. */
  datatype OffsetWriter = OffsetWriter(off: int)

  /** Result of writing through an offsetWriter: the advanced writer, the
      destination afterwards and the byte count reported. */
  datatype WriteResult = WriteResult(w: OffsetWriter, sink: Sink, n: int)

  /** offsetWriter.Write(p): write p at the cursor and advance it by the count written. */
  function Write(o: OffsetWriter, sink: Sink, p: seq<byte>): (r: WriteResult)
    ensures r.n == |p|
    ensures r.w.off == o.off + r.n
  {
    WriteResult(OffsetWriter(o.off + |p|), WriteAt(sink, p, o.off), |p|)
  }

  /** Write puts p at the cursor and leaves every other offset alone. */
  lemma WritePlaces(o: OffsetWriter, sink: Sink, p: seq<byte>)
    ensures Holds(Write(o, sink, p).sink, p, o.off)
    ensures UnchangedOutside(sink, Write(o, sink, p).sink, o.off, o.off + |p|)
  {
    WriteAtPlaces(sink, p, o.off);
  }

  lemma CopyStep(sink: Sink, src: seq<byte>, k: nat, off: int, mid: Sink, final: Sink)
    requires k <= |src|
    requires mid == WriteAt(sink, src[..k], off)
    requires final == WriteAt(mid, src[k..], off + k)
    ensures final == WriteAt(sink, src, off)
  {
    WriteAtConcat(sink, src[..k], src[k..], off);
    assert src[..k] + src[k..] == src;
  }

  /** io.Copy(writer, reader): the reader's bytes pass through in pieces of at
      most CopyBufferSize bytes, each one an offsetWriter.Write. The pieces
      together leave the destination as one WriteAt of the whole stream at
      the starting cursor. */
  function Copy(o: OffsetWriter, sink: Sink, src: seq<byte>): (r: WriteResult)
    decreases |src|
    ensures r.n == |src|
    ensures r.w.off == o.off + |src|
    ensures r.sink == WriteAt(sink, src, o.off)
  {
    if |src| == 0 then WriteResult(o, sink, 0)
    else
      var k := if |src| < CopyBufferSize then |src| else CopyBufferSize;
      var first := Write(o, sink, src[..k]);
      var rest := Copy(first.w, first.sink, src[k..]);
      CopyStep(sink, src, k, o.off, first.sink, rest.sink);
      WriteResult(rest.w, rest.sink, first.n + rest.n)
  }
}

=== FILE: planner.dfy ===
/** Sizing of a multi-thread copy once the chunk writer is open
    (fs/operations/multithread.go, multiThreadCopy lines 170-188): the part
    size, the chunk count and the worker-pool limit. */
module Planner {
  import opened Fs
  import opened Chunks

  datatype ChunkPlan = ChunkPlan(partSize: int, numChunks: int, concurrency: int)

  /** `requested` is the stream count the caller passed in; `info` is what
      the chunk writer reported. A zero chunk size makes Go's division
      panic, hence the requires. */
  function Plan(size: int, requested: int, multiThreadSet: bool, info: ChunkWriterInfo): (p: ChunkPlan)
    requires size > 0 && info.chunkSize != 0
    ensures p.partSize == Min(info.chunkSize, size)
    ensures p.partSize <= size
    ensures info.chunkSize > 0 ==>
      p.numChunks >= 1 && p.numChunks * p.partSize >= size && (p.numChunks - 1) * p.partSize < size
    ensures multiThreadSet && info.concurrency <= Min(requested, p.numChunks) ==>
      p.concurrency == Max(Min(requested, p.numChunks), 1)
    ensures !(multiThreadSet && info.concurrency <= Min(requested, p.numChunks)) ==>
      p.concurrency == Max(info.concurrency, 1)
    ensures p.concurrency >= 1
  {
    var partSize := if info.chunkSize > size then size else info.chunkSize;
    var numChunks := CalculateNumChunks(size, partSize);
    var c1 := if requested > numChunks then numChunks else requested;
    var c2 := if !multiThreadSet || info.concurrency > c1 then info.concurrency else c1;
    var c3 := if c2 < 1 then 1 else c2;
    ChunkPlan(partSize, numChunks, c3)
  }

  /** The planned concurrency exceeds the chunk count exactly when the
      backend's preferred concurrency does: backend preference is applied
      after the clamp to numChunks. */
  lemma PlanExceedsChunksIff(size: int, requested: int, multiThreadSet: bool, info: ChunkWriterInfo)
    requires size > 0 && info.chunkSize > 0
    ensures var p := Plan(size, requested, multiThreadSet, info);
      p.concurrency > p.numChunks <==> info.concurrency > p.numChunks
  {
  }

  /** A concrete plan whose concurrency exceeds its chunk count: a 10-byte
      source with a 64-byte chunk size is one chunk, yet a backend that
      prefers 4 streams gets a pool limit of 4. */
  lemma PlanCanExceedChunks()
    ensures var p := Plan(10, 8, true, ChunkWriterInfo(64, 4, false));
      p == ChunkPlan(10, 1, 4)
  {
    assert CalculateNumChunks(10, 10) == 1;
  }

  /** With an explicit stream count and a backend preferring at most one
      stream, the clamp to numChunks stands: 10 bytes in 64-byte chunks with
      8 requested streams plans one stream. */
  lemma PlanClampsToChunks()
    ensures Plan(10, 8, true, ChunkWriterInfo(64, 1, false)) == ChunkPlan(10, 1, 1)
  {
    assert CalculateNumChunks(10, 10) == 1;
  }

  /** Backend preference wins when the operator did not set the stream count:
      4 implicit streams, backend preference 8, 10 chunks plans 8 streams. */
  lemma PlanPrefersBackendWhenImplicit()
    ensures Plan(10 * 64, 4, false, ChunkWriterInfo(64, 8, false)) == ChunkPlan(64, 10, 8)
  {
    assert CalculateNumChunks(640, 64) == 10;
  }
}

=== FILE: wrappers.dfy ===
/** Failure-carrying datatypes shared by the model: Option for "may be absent",
    Result for "value or error", Outcome for "nil or error" (Go's bare `error`). */
module Wrappers {

  datatype Option<+T> = None | Some(value: T)

  datatype Result<+R, +E> = Success(value: R) | Failure(error: E)

  /** A Go `error` return with no accompanying value: Pass is nil. */
  datatype Outcome<+E> = Pass | Fail(error: E)
}

=== FILE: writer_at_chunk_writer.dfy ===
/** The adapter that presents a random-access destination as a chunk writer
    (fs/operations/multithread.go, writerAtChunkWriter and
    openChunkWriterFromOpenWriterAt), with its optional write buffer. */
module WriterAtChunkWriter {
  import opened Wrappers
  import opened GoInt
  import opened Fs
  import opened Chunks
  import opened OffsetWriter

  /** The adapter's state: source size, the configured chunk size and the
      chunk count derived from them when it was opened. */
  datatype Adapter = Adapter(size: int, chunkSize: int, chunks: int, writeBufferSize: int)

  /** The info the adapter reports: the configured chunk size and stream
      count, and never leave-parts-on-error. */
  function AdapterInfo(cfg: Config): (info: ChunkWriterInfo)
    ensures info.chunkSize == cfg.multiThreadChunkSize
    ensures info.concurrency == cfg.multiThreadStreams
    ensures !info.leavePartsOnError
  {
    ChunkWriterInfo(cfg.multiThreadChunkSize, cfg.multiThreadStreams, false)
  }

  /** The writer built once OpenWriterAt has succeeded. Go's division panics
      on a zero chunk size, which is why it is required to be nonzero. */
  function OpenAdapter(size: int, chunkSize: int, writeBufferSize: int): (w: Adapter)
    requires chunkSize != 0
    ensures w.size == size && w.chunkSize == chunkSize && w.writeBufferSize == writeBufferSize
    ensures size > 0 && chunkSize > 0 ==> w.chunks >= 1 && w.chunks * chunkSize >= size > (w.chunks - 1) * chunkSize
  {
    Adapter(size, chunkSize, CalculateNumChunks(size, chunkSize), writeBufferSize)
  }

  /** The adapter counts as many chunks as the planner does with its capped part size. */
  lemma AdapterChunksMatchPlan(size: int, chunkSize: int, wbs: int)
    requires size > 0 && chunkSize > 0
    ensures OpenAdapter(size, chunkSize, wbs).chunks == CalculateNumChunks(size, Min(chunkSize, size))
  {
    var n := OpenAdapter(size, chunkSize, wbs).chunks;
    if chunkSize > size {
      if n >= 2 {
        MulMonotone(1, n - 1, chunkSize);
      }
      assert n == 1;
      NumChunksIsCeiling(size, size, 1);
    }
  }

  /** The byte count WriteChunk expects for a chunk: a whole chunk, except
      the last one, which gets the remainder when the size is not a multiple. */
  function BytesToWrite(w: Adapter, chunk: int): (b: int)
    requires w.chunkSize != 0
    ensures w.size >= 0 && w.chunkSize > 0 ==> 0 < b <= w.chunkSize
    ensures chunk != w.chunks - 1 ==> b == w.chunkSize
    ensures w.size > 0 && w.chunkSize > 0 && w.chunks == CalculateNumChunks(w.size, w.chunkSize) && chunk == w.chunks - 1
      ==> chunk * w.chunkSize + b == w.size
  {
    var q := Quot(w.size, w.chunkSize);
    var m := Rem(w.size, w.chunkSize);
    if chunk == w.chunks - 1 && m != 0 then
      assert w.size > 0 && w.chunkSize > 0 && w.chunks == CalculateNumChunks(w.size, w.chunkSize) ==> chunk == q;
      m
    else
      assert w.size > 0 && w.chunkSize > 0 && w.chunks == CalculateNumChunks(w.size, w.chunkSize) && chunk == w.chunks - 1
        ==> chunk * w.chunkSize == w.chunkSize * q - w.chunkSize;
      w.chunkSize
  }

  /** Why a chunk write failed. */
  datatype WriteError = ShortOrLongChunk(expected: int, wrote: int)

  datatype ChunkWriteResult = ChunkWriteResult(n: int, err: Option<WriteError>, sink: Sink)

  /** How many of a chunk's `len` bytes have reached the destination when
      WriteChunk checks the count. Without a write buffer that is every byte;
      with one, only the buffers that filled up have been flushed, so the
      last partly filled buffer is still held back. */
  function FlushedBeforeCheck(w: Adapter, len: nat): (k: nat)
    ensures k <= len
    ensures w.writeBufferSize <= 0 ==> k == len
    ensures w.writeBufferSize > 0 ==> len - k < w.writeBufferSize && k == w.writeBufferSize * (len / w.writeBufferSize)
  {
    if w.writeBufferSize <= 0 then len
    else
      DivModFacts(len, w.writeBufferSize);
      len - len % w.writeBufferSize
  }

  /** WriteChunk(chunk, reader): copy the whole reader to the destination
      from offset chunk * chunkSize on, through the write buffer when there
      is one, then insist that exactly the expected number of bytes went
      through, reporting -1 otherwise. The buffer is flushed only after a
      good count, so a failed chunk leaves its unflushed tail unwritten. */
  function WriteChunk(w: Adapter, sink: Sink, chunk: int, reader: seq<byte>): (r: ChunkWriteResult)
    requires w.chunkSize != 0
    ensures r.err.None? <==> |reader| == BytesToWrite(w, chunk)
    ensures r.err.None? ==> r.n == BytesToWrite(w, chunk)
    ensures r.err.Some? ==> r.n == -1 && r.err.value == ShortOrLongChunk(BytesToWrite(w, chunk), |reader|)
    ensures r.err.None? ==> r.sink == WriteAt(sink, reader, chunk * w.chunkSize)
    ensures r.err.Some? ==> r.sink == WriteAt(sink, reader[..FlushedBeforeCheck(w, |reader|)], chunk * w.chunkSize)
  {
    var off := chunk * w.chunkSize;
    var bytesToWrite := BytesToWrite(w, chunk);
    // io.Copy counts every byte it read, whether or not it is still buffered
    var n := |reader|;
    var k := FlushedBeforeCheck(w, n);
    var copied := Copy(OffsetWriter(off), sink, reader[..k]);
    if n != bytesToWrite then
      ChunkWriteResult(-1, Some(ShortOrLongChunk(bytesToWrite, n)), copied.sink)
    else if w.writeBufferSize > 0 then
      var flushed := Write(copied.w, copied.sink, reader[k..]);
      CopyStep(sink, reader, k, off, copied.sink, flushed.sink);
      ChunkWriteResult(n, None, flushed.sink)
    else
      assert reader[..k] == reader;
      ChunkWriteResult(n, None, copied.sink)
  }

  /** A short chunk held entirely in a 4096-byte write buffer fails without
      reaching the destination. */
  lemma ShortBufferedChunkWritesNothing(sink: Sink)
    ensures var r := WriteChunk(Adapter(10, 8, 2, 4096), sink, 0, [1, 2, 3]);
      r.err == Some(ShortOrLongChunk(8, 3)) && r.n == -1 && r.sink == sink
  {
    assert FlushedBeforeCheck(Adapter(10, 8, 2, 4096), 3) == 0;
  }

  /** The adapter's Abort: look the (possibly partial) object up by name,
      then remove it; a failed lookup is reported and nothing is removed. */
  datatype AbortError = LookupForAbortFailed(cause: Cause) | RemoveFailed(cause: Cause)

  datatype AbortRun = AbortRun(removeAttempted: bool, outcome: Outcome<AbortError>)

  function Abort(lookup: Outcome<Cause>, remove: Outcome<Cause>): (r: AbortRun)
    ensures r.removeAttempted <==> lookup.Pass?
    ensures r.outcome.Pass? <==> lookup.Pass? && remove.Pass?
    ensures lookup.Fail? ==> r.outcome == Fail(LookupForAbortFailed(lookup.error))
  {
    match lookup
    case Fail(c) => AbortRun(false, Fail(LookupForAbortFailed(c)))
    case Pass =>
      match remove
      case Fail(c) => AbortRun(true, Fail(RemoveFailed(c)))
      case Pass => AbortRun(true, Pass)
  }

  /** The error Abort hands back to its caller: the cause of the failed
      lookup or removal, or none. */
  function AbortReturn(r: AbortRun): (o: Outcome<Cause>)
    ensures o.Pass? <==> r.outcome.Pass?
  {
    match r.outcome
    case Pass => Pass
    case Fail(LookupForAbortFailed(c)) => Fail(c)
    case Fail(RemoveFailed(c)) => Fail(c)
  }

  /** The adapter's expectation agrees with copyChunk's range math: for every
      chunk index the adapter knows, the part size the planner uses (the
      configured chunk size capped at the source size) gives a range starting
      at the adapter's base offset and exactly BytesToWrite bytes long. */
  lemma ExpectedBytesMatchRange(size: int, chunkSize: int, wbs: int, chunk: int)
    requires size > 0 && chunkSize > 0
    requires 0 <= chunk < OpenAdapter(size, chunkSize, wbs).chunks
    ensures var w := OpenAdapter(size, chunkSize, wbs);
      ChunkRange(Min(chunkSize, size), size, chunk)
        == Some(ByteRange(chunk * chunkSize, chunk * chunkSize + BytesToWrite(w, chunk)))
  {
    var w := OpenAdapter(size, chunkSize, wbs);
    if chunkSize > size {
      AdapterChunksMatchPlan(size, chunkSize, wbs);
      assert Rem(size, chunkSize) == size;
    } else {
      var q := Quot(size, chunkSize);
      var m := Rem(size, chunkSize);
      assert size == chunkSize * q + m;
      if chunk == w.chunks - 1 && m != 0 {
        LastPartialChunk(size, chunkSize, q, m, chunk);
      } else if chunk == w.chunks - 1 {
        LastFullChunk(size, chunkSize, q, chunk);
      } else {
        MulMonotone(chunk + 1, w.chunks - 1, chunkSize);
        InnerChunk(size, chunkSize, chunk);
      }
    }
  }

  lemma LastPartialChunk(size: int, p: int, q: int, m: int, chunk: int)
    requires p > 0 && size == p * q + m && 0 < m < p && chunk == q
    ensures ChunkRange(p, size, chunk) == Some(ByteRange(chunk * p, chunk * p + m))
  {
  }

  lemma LastFullChunk(size: int, p: int, q: int, chunk: int)
    requires 0 < p <= size && size == p * q && chunk == q - 1
    ensures ChunkRange(p, size, chunk) == Some(ByteRange(chunk * p, chunk * p + p))
  {
    assert chunk * p == p * q - p;
  }

  lemma InnerChunk(size: int, p: int, chunk: int)
    requires p > 0 && (chunk + 1) * p < size && chunk >= 0
    ensures ChunkRange(p, size, chunk) == Some(ByteRange(chunk * p, chunk * p + p))
  {
    assert (chunk + 1) * p == chunk * p + p;
  }

  /** Sum of the expected byte counts of chunks 0 .. k-1. */
  function ExpectedTotal(w: Adapter, k: nat): int
    requires w.chunkSize != 0
  {
    if k == 0 then 0 else ExpectedTotal(w, k - 1) + BytesToWrite(w, k - 1)
  }

  /** The expected counts of all chunks add up to the source size. */
  lemma {:induction false} ExpectedTotalIsSize(size: int, chunkSize: int, wbs: int)
    requires size > 0 && chunkSize > 0
    ensures var w := OpenAdapter(size, chunkSize, wbs);
      ExpectedTotal(w, w.chunks) == size
  {
    var w := OpenAdapter(size, chunkSize, wbs);
    var p := Min(chunkSize, size);
    ExpectedTotalMatchesCovered(size, chunkSize, wbs, w.chunks);
    AdapterChunksMatchPlan(size, chunkSize, wbs);
    ChunkLengthsSumToSize(size, p);
  }

  lemma {:induction false} ExpectedTotalMatchesCovered(size: int, chunkSize: int, wbs: int, k: nat)
    requires size > 0 && chunkSize > 0
    requires k <= OpenAdapter(size, chunkSize, wbs).chunks
    ensures ExpectedTotal(OpenAdapter(size, chunkSize, wbs), k) == CoveredBytes(Min(chunkSize, size), size, k)
  {
    if k > 0 {
      ExpectedTotalMatchesCovered(size, chunkSize, wbs, k - 1);
      ExpectedBytesMatchRange(size, chunkSize, wbs, k - 1);
    }
  }
}
